=== FILE: README.md ===
# Virtual critical load: Enphase client and grid-outage poll, in Dafny

This project models the core of the `virtual_critical_load` package. That package
watches an Enphase home-battery installation and decides when the grid is down.
It has two parts.

- **The `Enphase` client** (`enphase/enphase.py`):
  - the cloud token `EnphaseToken`, with its two timestamps and the validity check;
  - the account configuration `EnphaseConfig` and the `config` setter;
  - `get_new_token`: a cloud login followed by a token request;
  - `create_envoy_session`: one check request to the gateway, after which the
    session is cached;
  - the gateway endpoint methods, which all obtain the session first;
  - `save` and `load` of the `enphase.config` file. `load` renews the token when
    the stored one is not valid.
- **The monitoring script** (`__main__.py`):
  - `process_ensemble_inventory` reduces the gateway's ensemble inventory to a
    grid status (UP/DOWN) and the battery charge levels with their mean;
  - the report lines, including the bracketed `", "`-joined battery levels;
  - the "grid is down" decision of `poll_enphase`;
  - the script itself: construct, `load` once, then poll on a schedule.

Modelling choices:

- Python values are the `Json` datatype (`py_values.dfy`):
  - `dict.get` takes the first binding of a key and gives `None` (`JNull`) when the key is missing;
  - truthiness is Python's;
  - `iter()` yields a list's elements, a str's characters or a dict's keys;
  - `Cls(**d)` raises TypeError unless the keys are exactly the dataclass fields.
- Python's `int()` on decoded values is written out in `py_int.dfy`:
  - surrounding whitespace, one sign, and digits with single underscores;
  - floats truncate toward zero;
  - bools give 0 or 1;
  - `None`, lists and dicts raise TypeError.
- Exceptions are values of `Error`, named by Python exception class.
  - `OverflowError` is what `int / int` raises when the exact quotient rounds beyond
    the largest float, that is when its magnitude is at least 2^1024 - 2^970
    (`Inventory.FitsFloat`).
  - `Raised(msg)` stands for `raise Exception(msg)`, and the messages are the
    source's own strings.
  - `MissingGroup(kind)` is the StopIteration that escapes `next(...)`.
- The network is an oracle `Network = (nat, Request) -> Reply`. A reply depends on the
  request and on its position in the log of requests sent so far.
  - A `Failed` reply is any exception the HTTP library raises.
  - A received body that is not JSON is `Received(None)`.
  - Status codes are never read by the source, so they are not modelled.
- Every client operation is a pure function from a `World` to a `Step`:
  - a `World` holds the client, the request log and the config file;
  - a `Step` holds the new world and a result or an exception;
  - state changed before an exception stays changed, as in Python.
- Time is an integer count of epoch seconds passed in by the caller. Nothing reads a clock.
  Everything is deterministic.

Behaviour of the code that a reader might not expect, which the model keeps:

- `is_valid` evaluates `start <= now <= end` as a Python chained comparison, so `end` is
  only converted once `now` has reached `start`. A token whose `expires_at` cannot be
  converted is an error after its start, but before its start the answer is simply
  `False` (`Token.IsValid`).
- The session cache ignores the token. A renewed or expired token leaves the cached
  session in use, and the answer to the check request is never inspected
  (`Lifecycle.RenewalKeepsCachedSession`, `Lifecycle.ExpiredTokenStillUsesCachedSession`).
- A poll never checks or renews the token. The only cloud requests of the whole script
  are those of the initial `load` (`Poll.ExpiredTokenPollSendsOneRequest`,
  `Poll.ScriptLogsInOnlyAtStart`).
- `poll_enphase` catches nothing, and `schedule` does not either. The first poll that
  raises ends the script (`Poll.Schedule`).
- `get_new_token` refuses only when username, password and serial are all empty.
  It never inspects the login response (`Lifecycle.OnlyAllEmptyCredentialsRejected`).
- `save` opens the file for writing, which empties it, before it reads the config and the
  token. Saving without either raises AttributeError and leaves an empty, unreadable
  file (`Client.Save`).

## Model

| member | source | states |
|---|---|---|
| `PyValues.Kwargs` | virtual_critical_load/enphase/enphase.py:74 | `Cls(**v)` succeeds exactly when `v` is a dict whose keys are exactly the field names; each field is the dict's value for its name; anything else is TypeError |
| `PyValues.KwargsOfFieldsDict` | virtual_critical_load/enphase/enphase.py:83-84 | rebuilding a dataclass from the `__dict__` written for it gives back the same field values |
| `PyValues.Get` | virtual_critical_load/enphase/enphase.py:90-91 | `d.get(key)` is None when the key is absent, and otherwise a value bound to that key in the dict |
| `PyValues.Truthy` | virtual_critical_load/enphase/enphase.py:37 | None, False and "" are falsy and every non-empty str is truthy, as the `and` tests of the timestamps and credentials use them |
| `PyValues.Iterate` | virtual_critical_load/__main__.py:12 | iterating a list gives its items, a str or a dict gives strings (characters or keys), and anything else is TypeError |
| `PyInt.PyIntOf` | virtual_critical_load/enphase/enphase.py:25 | `int(v)`: an int is itself; None, lists and dicts raise TypeError; only a str can raise ValueError |
| `PyInt.ParseIntString` | virtual_critical_load/enphase/enphase.py:25 | `int(s)` on a str fails only with ValueError, and always does on a blank string |
| `PyInt.Decimal` | virtual_critical_load/__main__.py:27 | `str(n)` is non-empty, made of digits and a minus sign, and has no sign for a non-negative `n`; read back by `PyInt.ParseDecimal` |
| `PyInt.ParseDecimal` | virtual_critical_load/__main__.py:27 | `int(str(n)) == n` for every integer, negative ones included |
| `Token.FromKwargs` | virtual_critical_load/enphase/enphase.py:12-16 | a token is built exactly from a dict with keys `token`, `generation_time` and `expires_at`, taking each field from its key |
| `Token.FromKwargsOfTokenAsDict` | virtual_critical_load/enphase/enphase.py:80-94 | the token's saved `__dict__` rebuilds the same token |
| `Token.Start` | virtual_critical_load/enphase/enphase.py:22-27 | `start` is `int(generation_time)` when that converts, and otherwise raises the property's own exception |
| `Token.End` | virtual_critical_load/enphase/enphase.py:29-34 | `end` is `int(expires_at)` when that converts, and otherwise raises the property's own exception |
| `Token.IsValid` | virtual_critical_load/enphase/enphase.py:42-46 | for well-formed tokens, true iff `start <= now <= end`, inclusive at both ends; a missing timestamp raises and never answers false; an unconvertible start raises; an unconvertible end raises once `now >= start` and answers false before it; true only inside the window |
| `Token.IsValidFalseMeansOutside` | virtual_critical_load/enphase/enphase.py:42-46 | a false answer means the start converted and `now` is before it or after a converted end |
| `Token.Validity` | virtual_critical_load/enphase/enphase.py:36-40 | `validity` succeeds exactly when all three fields are present and both timestamps convert; a missing field raises its message; a bad start raises the start message; a good start with a bad end raises the end message |
| `Token.ValidityAgreesWithIsValid` | virtual_critical_load/enphase/enphase.py:36-46 | the window `validity` reports is the one `is_valid` checks |
| `Client.ConfigFromKwargs` | virtual_critical_load/enphase/enphase.py:49-55 | a config is built exactly from a dict with the five field names, taking each field from its key |
| `Client.ConfigFromKwargsOfAsDict` | virtual_critical_load/enphase/enphase.py:80-93 | the config's saved `__dict__` rebuilds the same config |
| `Client.SetConfig` | virtual_critical_load/enphase/enphase.py:71-78 | a dict with exactly the five fields becomes the config; a dict with other keys raises TypeError; an `EnphaseConfig` is stored unchanged; any other value raises the unknown-type message; on error the client is untouched, and token and session are never touched |
| `Client.GetNewToken` | virtual_critical_load/enphase/enphase.py:100-115 | no config raises AttributeError; all three credentials empty raises the credentials message with no request; otherwise the first request is the login; success means exactly login then token request, and the stored token is the one parsed from the token reply; only cloud requests are sent; config, session and file are untouched |
| `Client.CreateEnvoySession` | virtual_critical_load/enphase/enphase.py:121-129 | a cached session is returned with no request; otherwise, with a config and a token, exactly one check request carrying the token's bearer value, and the new session is cached exactly when it got an answer; without a config or a token, AttributeError and no request; config and token are untouched |
| `Client.Fetch` | virtual_critical_load/enphase/enphase.py:131-183 | each endpoint method obtains the session first: a new session is opened by a check request at the head of the new requests; the only data request is the last request and goes through the session cached afterwards; success returns the reply body to that request; no cloud request is sent |
| `Client.Save` | virtual_critical_load/enphase/enphase.py:80-85 | succeeds exactly when both config and token are set, and then writes the `config`/`token` document; otherwise raises AttributeError and leaves an emptied file |
| `Client.Load` | virtual_critical_load/enphase/enphase.py:87-98 | a missing file, an undecodable file and a non-dict document raise their errors without change; a `config` entry that is missing or not a dict raises "unknown type" and one with the wrong keys raises TypeError, both with the client unchanged; a missing or malformed `token` raises TypeError after the config has been replaced; the cached session is never touched; only cloud requests (at most two) are sent; a successful load that sent requests has saved the new token with the config |
| `Client.Renew` | virtual_critical_load/enphase/enphase.py:96-98 | the renewal branch of `load` keeps config and session, sends at most two cloud requests, and on success has a new token saved with the config in the file |
| `Lifecycle.OnlyAllEmptyCredentialsRejected` | virtual_critical_load/enphase/enphase.py:100-102 | `get_new_token` refuses iff username, password and serial are all empty, and sends a request iff one of them is present |
| `Lifecycle.SecondSessionIsCacheHit` | virtual_critical_load/enphase/enphase.py:121-129 | after a successful `create_envoy_session`, a second one returns the same session and sends nothing, so two calls send at most one request |
| `Lifecycle.RenewalKeepsCachedSession` | virtual_critical_load/enphase/enphase.py:100-129 | renewing the token keeps the cached session, which the next `create_envoy_session` returns with no request |
| `Lifecycle.ExpiredTokenStillUsesCachedSession` | virtual_critical_load/enphase/enphase.py:121-135 | with a cached session and an expired token, an endpoint call sends only its data request through the cached session and changes nothing in the client |
| `Lifecycle.SavedDocumentFields` | virtual_critical_load/enphase/enphase.py:80-85 | the saved document is a dict whose `config` and `token` entries are the two `__dict__`s |
| `Lifecycle.LoadRenewsOnlyWhenInvalid` | virtual_critical_load/enphase/enphase.py:87-98 | a valid stored token means the loaded state and no request; a malformed one is the validity error with no request; an invalid one leads to a login (or to the credentials error with no request), and on success exactly login then token request with the new token saved alongside the config |
| `Lifecycle.LoadReachesValidity` | virtual_critical_load/enphase/enphase.py:87-98 | once the file's config and token are read, the outcome of `load` is decided by `is_valid` alone: its error, nothing more to do, or the renewal |
| `Lifecycle.LoadOfSavedKeepsToken` | virtual_critical_load/enphase/enphase.py:80-98 | loading a saved file whose token is not judged invalid restores config and token exactly, sends nothing, and succeeds iff the token is valid |
| `Lifecycle.LoadOfSavedRenews` | virtual_critical_load/enphase/enphase.py:80-98 | loading a saved file whose token is invalid restores the config and never succeeds without sending requests |
| `Lifecycle.SaveThenLoad` | virtual_critical_load/enphase/enphase.py:80-98 | `save` then `load` into any client restores the config, keeps that client's session, restores the token unless it was invalid, and succeeds with no request iff the token is valid |
| `Lifecycle.FreshClientIsSessionFirst` | virtual_critical_load/enphase/enphase.py:58-65 | a new client has no session and no data request, so the invariant holds at the start |
| `Lifecycle.ExtensionKeepsSessionFirst` | virtual_critical_load/enphase/enphase.py:121-183 | appending requests keeps the invariant when the new data requests and the cached session are backed by earlier check requests |
| `Lifecycle.SessionFirstPreserved` | virtual_critical_load/enphase/enphase.py:121-183 | no client operation breaks the invariant: every data request, and the cached session, goes through a session opened by an earlier check request carrying its bearer value |
| `Inventory.FindGroup` | virtual_critical_load/__main__.py:12 | the `next(...)` search stops at the first dict of the kind; it raises AttributeError at a non-dict met first; it raises StopIteration exactly when every item is a dict of another kind |
| `Inventory.FindGroupIsFirst` | virtual_critical_load/__main__.py:12-16 | when several groups share a type, the first in list order is used |
| `Inventory.FirstDevice` | virtual_critical_load/__main__.py:14 | `devices[0]` as a dict: only a non-empty list whose first item is a dict succeeds; an empty list is IndexError; None is TypeError |
| `Inventory.GridOf` | virtual_critical_load/__main__.py:14 | the grid is UP exactly when `mains_oper_state` is the string "closed"; any other value, a missing one included, is DOWN |
| `Inventory.Level` | virtual_critical_load/__main__.py:18 | one battery level is `int(percentFull)`; a non-dict device raises AttributeError |
| `Inventory.BatteryLevels` | virtual_critical_load/__main__.py:17-18 | the loop succeeds when every device gives a level, and then yields one level per device in device order |
| `Inventory.BatteryLevelsFailure` | virtual_critical_load/__main__.py:17-18 | a failing loop raises the error of a device all of whose predecessors gave a level, that is the first device that fails |
| `Inventory.Mean` | virtual_critical_load/__main__.py:22 | the mean times the count is the sum |
| `Inventory.MeanBounds` | virtual_critical_load/__main__.py:20-22 | the mean lies between the least and greatest bound of the levels |
| `Inventory.Summarize` | virtual_critical_load/__main__.py:17-22 | succeeds only when there is a battery and every level converts, and then can fail only with OverflowError; no battery is ZeroDivisionError, never a default; levels follow the devices and the average is their mean, within float range |
| `Inventory.SummarizeOfLevels` | virtual_critical_load/__main__.py:17-22 | given every device's level, the summary of at least one device is those levels with their mean, or OverflowError exactly when the mean is beyond float range |
| `Inventory.ProcessEnsembleInventory` | virtual_critical_load/__main__.py:8-22 | a non-iterable input is TypeError; no ENPOWER group is StopIteration for ENPOWER whatever else is missing; a result has at least one level and its average is the exact mean, within float range |
| `Inventory.ReduceFromFirstGroups` | virtual_critical_load/__main__.py:8-22 | with both groups present at their first positions, the reduction is the summary of the first ENCHARGE group's devices: it succeeds only if there is a battery and all levels convert, and then fails only with OverflowError; UP iff the first ENPOWER device's mains are "closed"; the levels are that group's, in order |
| `Inventory.ReduceToLevels` | virtual_critical_load/__main__.py:8-22 | given every battery's level as well, the reduction is ZeroDivisionError without a battery, OverflowError when the mean is beyond float range, and otherwise the first ENPOWER device's grid status with those levels and their mean |
| `Inventory.ReduceWithoutEnpower` | virtual_critical_load/__main__.py:12 | no ENPOWER group is an error, checked before ENCHARGE |
| `Inventory.ReduceWithoutEnpowerDevice` | virtual_critical_load/__main__.py:14 | an ENPOWER group with an empty device list is IndexError |
| `Inventory.ReduceWithoutEncharge` | virtual_critical_load/__main__.py:16 | with a usable ENPOWER group but no ENCHARGE group, the second search raises StopIteration for ENCHARGE |
| `Inventory.Join` | virtual_critical_load/__main__.py:27 | the `", "`-join is empty exactly when there are no levels; read back by `Inventory.ParseItemsOfJoin` |
| `Inventory.RenderLevels` | virtual_critical_load/__main__.py:27 | the bracketed list is `[]` exactly when there are no levels; read back by `Inventory.RenderRoundTrip` |
| `Inventory.ParseItemsOfJoin` | virtual_critical_load/__main__.py:27 | the `", "`-joined decimal levels split back into the same non-empty list |
| `Inventory.RenderRoundTrip` | virtual_critical_load/__main__.py:27 | the bracketed rendering of the levels reads back as exactly those levels, in order, the empty list included |
| `Poll.Report` | virtual_critical_load/__main__.py:25-36 | the report prints the grid label, then the mean with the bracketed levels, then a blank line, and then the breakers notice exactly when the grid is DOWN, which makes four lines instead of three |
| `Poll.NoticeOncePerReport` | virtual_critical_load/__main__.py:35-36 | a report holds the breakers notice once when the grid is DOWN and not at all when UP |
| `Poll.ReportIsReadable` | virtual_critical_load/__main__.py:25-28 | the printed label is "UP" iff the grid is up, and the printed level list parses back to the levels |
| `Poll.PollEnphase` | virtual_critical_load/__main__.py:31-36 | a poll sends only gateway requests and never touches config, token or file; it prints nothing iff it raises; on success it prints the report of the reduction of the reply to its one data request |
| `Poll.NoticeIffPollSawOutage` | virtual_critical_load/__main__.py:35-36 | the breakers notice is printed iff the poll succeeded and saw the grid DOWN, never when UP or when the reduction fails, and then exactly once |
| `Poll.PollFiresIffMainsNotClosed` | virtual_critical_load/__main__.py:31-36 | for an inventory with both groups whose battery levels all convert, the poll succeeds iff there is a battery and the mean is within float range, which percentages always are; a mean beyond it raises OverflowError and prints nothing; a successful poll prints the notice iff the first ENPOWER device's mains are not "closed", with one level per battery in order |
| `Poll.PollResultOfFetched` | virtual_critical_load/__main__.py:31-33 | a poll whose fetch returned the inventory `data` has the reduction of `data` as its result |
| `Poll.PollWorldIsFetchWorld` | virtual_critical_load/__main__.py:31-32 | a poll leaves the client and the log as its endpoint call does |
| `Poll.SampleInventoryReduces` | virtual_critical_load/__main__.py:8-22 | two groups with batteries at "80" and "60" reduce to levels [80, 60] with mean 70, UP iff the mains are "closed" |
| `Poll.SamplePollFiresOnce` | virtual_critical_load/__main__.py:31-36 | a poll of that inventory prints the breakers notice exactly once when the mains are open and never when closed |
| `Poll.ExpiredTokenPollSendsOneRequest` | virtual_critical_load/__main__.py:31-32 | with a cached session and an expired token, a poll sends only its data request: no login and no new check request |
| `Poll.PollKeepsSessionFirst` | virtual_critical_load/__main__.py:31-32 | a poll keeps the invariant that data requests go only through sessions opened earlier |
| `Poll.NoticeIffSomeOutage` | virtual_critical_load/__main__.py:35-36 | a run's output holds the notice iff some poll of it saw the grid DOWN |
| `Poll.NoticeOncePerOutage` | virtual_critical_load/__main__.py:35-36 | the reports of several polls hold the notice exactly as many times as polls saw the grid DOWN |
| `Poll.Schedule` | virtual_critical_load/__main__.py:44-48 | a run ends early exactly when it fails: with no failure all `n` polls completed, and a failure leaves fewer than `n` summaries |
| `Poll.ScheduleWithoutRaiseCompletes` | virtual_critical_load/__main__.py:44-48 | a job none of whose `n` successive polls (each from the world the previous one left) raises completes all `n` polls without failure |
| `Poll.ScheduleFailureIsFirstRaise` | virtual_critical_load/__main__.py:44-48 | the summaries are the results of the successive polls, each from the world the previous one left, and a failure is the exception raised by the poll that followed them, since nothing catches it |
| `Poll.ScheduleOutput` | virtual_critical_load/__main__.py:44-48 | a run prints the reports of its completed polls, in order, and nothing else |
| `Poll.ScheduleKeepsClient` | virtual_critical_load/__main__.py:44-48 | a run keeps file, config and token, and a session cached beforehand |
| `Poll.ScheduleSendsNoCloudRequest` | virtual_critical_load/__main__.py:44-48 | a run appends only gateway requests to the log |
| `Poll.ScheduleUsesOneSession` | virtual_critical_load/__main__.py:44-48 | every data request of a run goes through the one session cached at its end; a run ending without a session sent none |
| `Poll.OneSessionStep` | virtual_critical_load/__main__.py:44-48 | a completed poll followed by a run that kept its session sent every data request since the poll began through that session |
| `Poll.ScheduleSessionCarriesToken` | virtual_critical_load/__main__.py:44-48 | a session a run opens carries the client's token |
| `Poll.ScheduleRequestCount` | virtual_critical_load/__main__.py:44-48 | a run sends at least one request per completed poll, and at most one per attempted poll plus one check request |
| `Poll.RunScript` | virtual_critical_load/__main__.py:39-48 | a failing initial `load` ends the script before any poll; after a successful `load` the run is exactly `Schedule` of the poll job from the world the load left, so up to `n` polls run |
| `Poll.ScriptOutput` | virtual_critical_load/__main__.py:39-48 | the script prints one report per completed poll, and the breakers notice iff some poll saw the grid DOWN |
| `Poll.ScriptLogsInOnlyAtStart` | virtual_critical_load/__main__.py:39-48 | every cloud request of the script is among the first two requests, those of `load` |
| `Poll.ScriptUsesOneSession` | virtual_critical_load/__main__.py:39-48 | every data request of the script goes through the one session cached at the end |
| `Poll.ScriptSessionCarriesLoadedToken` | virtual_critical_load/__main__.py:39-48 | that session carries the bearer value of the token `load` left, which the polls never change |

## Left out

- HTTP transport: URLs, form encoding, cookies, status codes, timeouts and TLS verification (`envoy_ssl_verify`, `urllib3.disable_warnings`) are not modelled. Each request is a `Request` value and each reply an oracle answer.
- The JSON text of `enphase.config` and of replies: `json.dumps`/`json.loads` are taken as exact inverses on the documents involved. A file is missing, not JSON (`Unreadable`), or a decoded document.
- Duplicate keys in a decoded object: Python keeps the last one, while the model's `Get` takes the first. Documents are assumed to have distinct keys, as the ones `save` writes do.
- `datetime.fromtimestamp`, `datetime.now()`, `isoformat` and the `.days` arithmetic are not modelled. Time is integer epoch seconds, so sub-second parts of "now" and local-time/DST effects are out.
- `Token.Start`, `Token.End`: do not model `fromtimestamp`'s range limits. The model converts any integer. For an out-of-range timestamp the source raises ValueError, which becomes the property's own exception, or OverflowError, which escapes. An example is a millisecond `expires_at` such as 1700000000000. `Token.IsValid`, `Token.Validity` and `Client.Load` inherit this gap.
- `Token.Validity`: returns the (start, end) window, not the formatted sentence with ISO dates and a day count.
- `PyInt.PyIntOf`: the `Json` type has no NaN or infinite floats: every `JFloat` is a finite real. Python's `json.loads` does accept `NaN`, `Infinity` and `1e999`. On those, `int(inf)` raises OverflowError. That error is not caught by the `except (TypeError, ValueError)` at enphase.py:26 and enphase.py:33, so it escapes `start`/`end` and with them `is_valid` and `load`; as a battery's `percentFull` it escapes `process_ensemble_inventory`. `int(nan)` raises ValueError, which the properties turn into their own exception.
- `PyInt.ParseIntString`: accepts only ASCII digits, and takes as whitespace the ASCII spaces together with U+001C to U+001F. Python's `int` also takes other Unicode digits and spaces, and refuses strings longer than 4300 digits.
- `Inventory.Mean`: is the exact rational mean. Python's `/` rounds it to a float, and the printed level is the float's repr. Only the rounding and the repr are left out: a quotient beyond float range is modelled, as OverflowError (`Inventory.FitsFloat`).
- `print` itself: the printed lines are values of `Poll.Line`.
- `Poll.Schedule`: models the loop as a bounded number of polls. The ten-second period, `run_pending` and `time.sleep(1)` are left out, since they only decide when the next poll happens.
- `value` and `token` properties: plain getters.
- `save_snapshot`: the sequential use of all endpoint methods adds nothing beyond `Client.Fetch`.
- The credentials hard-coded in the `__main__` block of `enphase.py` are not part of this model.

=== FILE: client.dfy ===
/** The `Enphase` client: its optional configuration, optional cloud token
    and optional cached gateway session, the configuration file it saves to
    and loads from, and every HTTP request it sends.

    The network is an oracle: the reply to a request depends only on the
    request and on its position in the log of requests sent so far. A
    `Failed` reply stands for any exception the HTTP library raises; a
    received body that is not JSON is `Received(None)`. Status codes are
    never inspected, so they are not modelled. */
module Client {
  import opened PyValues
  import opened Token

  /** The five dataclass fields; like the token's, they are not type-checked. */
  datatype EnphaseConfig = EnphaseConfig(username: Json, password: Json, serial: Json, envoy: Json, siteId: Json)

  const ConfigFieldNames: seq<string> := ["username", "password", "serial", "envoy", "site_id"]

  const UnknownConfigMessage := "Enphase config provided is of unknown type."
  const CredentialsMessage := "Username, password and envoy serial number are required."

  /** `EnphaseConfig(**v)` */
  function ConfigFromKwargs(v: Json): (r: Result<EnphaseConfig>)
    ensures r.Ok? <==> v.JObject? && Keys(v.fields) == {"username", "password", "serial", "envoy", "site_id"}
    ensures r.Err? ==> r.error == TypeError
    ensures r.Ok? ==>
              && r.value.username == Get(v.fields, "username")
              && r.value.password == Get(v.fields, "password")
              && r.value.serial == Get(v.fields, "serial")
              && r.value.envoy == Get(v.fields, "envoy")
              && r.value.siteId == Get(v.fields, "site_id")
  {
    var values :- Kwargs(v, ConfigFieldNames);
    Ok(EnphaseConfig(values[0], values[1], values[2], values[3], values[4]))
  }

  /** The configuration's `__dict__`, as `save` writes it. */
  function ConfigAsDict(c: EnphaseConfig): Json {
    FieldsDict(ConfigFieldNames, [c.username, c.password, c.serial, c.envoy, c.siteId])
  }

  lemma ConfigFromKwargsOfAsDict(c: EnphaseConfig)
    ensures ConfigFromKwargs(ConfigAsDict(c)) == Ok(c)
  {
    KwargsOfFieldsDict(ConfigFieldNames, [c.username, c.password, c.serial, c.envoy, c.siteId]);
  }

  /** What the `config` setter may be handed: a decoded JSON value (a dict
      among them) or an `EnphaseConfig` instance. */
  datatype ConfigArg = Plain(v: Json) | Typed(c: EnphaseConfig)

  /** A gateway session, identified by the position in the request log of
      the check request that opened it, and remembering the bearer value
      that request carried. */
  datatype Session = Session(createdAt: nat, bearer: Json)

  /** The gateway endpoints, one per endpoint method, with their query
      parameters; each names one URL path on the gateway (`/home.json`,
      `/ivp/ensemble/inventory`, ...). */
  datatype Endpoint =
    | HomeJson
    | ProductionJson(details: int)
    | ApiV1Production
    | ApiV1ProductionInverters
    | InventoryJson(deleted: int)
    | IvpEnsembleInventory
    | IvpMeters
    | NetworkDisplayJson
    | DbaJson

  /** The requests the client sends. `CheckJwt` carries the header
      `Authorization: Bearer <bearer>` (section 2.1 of RFC 6750) to the
      gateway's `/auth/check_jwt`; `EnvoyGet` is a data request sent through
      an open gateway session. */
  datatype Request =
    | Login(email: Json, password: Json)
    | TokenRequest(serial: Json)
    | CheckJwt(envoy: Json, bearer: Json)
    | EnvoyGet(envoy: Json, endpoint: Endpoint, via: Session)

  /** A request to the cloud identity service rather than to the gateway. */
  predicate IsCloudRequest(q: Request) {
    q.Login? || q.TokenRequest?
  }

  /** A request to the gateway. */
  predicate IsGatewayRequest(q: Request) {
    !IsCloudRequest(q)
  }

  datatype Reply = Failed | Received(body: Option<Json>)

  type Network = (nat, Request) -> Reply

  /** The `enphase.config` file: missing, holding text that is not JSON, or
      holding a JSON document. */
  datatype ConfigFile = Absent | Unreadable | Holds(doc: Json)

  datatype Enphase = Enphase(config: Option<EnphaseConfig>, token: Option<EnphaseToken>, session: Option<Session>)

  /** A newly constructed client. */
  const Fresh := Enphase(None, None, None)

  /** The client together with what it affects: the requests sent so far and
      the configuration file. */
  datatype World = World(client: Enphase, log: seq<Request>, file: ConfigFile)

  /** The world after a call and what the call returned or raised. State
      changed before an exception stays changed, as in Python. */
  datatype Step<T> = Step(world: World, result: Result<T>)

  /** `log` starts with `prefix` and everything after it satisfies `ok`. */
  predicate ExtendsWith(prefix: seq<Request>, log: seq<Request>, ok: Request -> bool) {
    |prefix| <= |log| && log[..|prefix|] == prefix &&
    forall i :: |prefix| <= i < |log| ==> ok(log[i])
  }

  /** The `config` setter. */
  function SetConfig(w: World, arg: ConfigArg): (r: Step<()>)
    ensures r.result.Err? ==> r.world == w
    ensures r.world == w.(client := r.world.client)
    ensures r.world.client.token == w.client.token && r.world.client.session == w.client.session
    ensures arg.Typed? ==> r.result.Ok? && r.world.client.config == Some(arg.c)
    ensures arg.Plain? && !arg.v.JObject? ==> r.result == Err(Raised(UnknownConfigMessage))
    ensures arg.Plain? && arg.v.JObject? ==>
              (r.result.Ok? <==> Keys(arg.v.fields) == {"username", "password", "serial", "envoy", "site_id"})
    ensures arg.Plain? && arg.v.JObject? && r.result.Err? ==> r.result.error == TypeError
    ensures arg.Plain? && r.result.Ok? ==>
              ConfigFromKwargs(arg.v).Ok? && r.world.client.config == Some(ConfigFromKwargs(arg.v).value)
  {
    match arg
    case Typed(c) => Step(w.(client := w.client.(config := Some(c))), Ok(()))
    case Plain(v) =>
      if v.JObject? then
        match ConfigFromKwargs(v)
        case Ok(c) => Step(w.(client := w.client.(config := Some(c))), Ok(()))
        case Err(e) => Step(w, Err(e))
      else
        Step(w, Err(Raised(UnknownConfigMessage)))
  }

  /** `get_new_token()`: log in to the cloud, then request a token for the
      gateway's serial number and keep it. Refused only when username,
      password and serial are all falsy. */
  function GetNewToken(w: World, net: Network): (r: Step<EnphaseToken>)
    ensures r.world.file == w.file
    ensures r.world.client.config == w.client.config && r.world.client.session == w.client.session
    ensures ExtendsWith(w.log, r.world.log, IsCloudRequest) && |r.world.log| <= |w.log| + 2
    ensures w.client.config.None? ==> r == Step(w, Err(AttributeError))
    ensures w.client.config.Some? ==>
              var c := w.client.config.value;
              && (!Truthy(c.username) && !Truthy(c.password) && !Truthy(c.serial) ==>
                    r == Step(w, Err(Raised(CredentialsMessage))))
              && (Truthy(c.username) || Truthy(c.password) || Truthy(c.serial) ==>
                    |r.world.log| > |w.log| && r.world.log[|w.log|] == Login(c.username, c.password))
              && (r.result.Ok? ==>
                    && r.world.log == w.log + [Login(c.username, c.password), TokenRequest(c.serial)]
                    && net(|w.log| + 1, TokenRequest(c.serial)).Received?
                    && net(|w.log| + 1, TokenRequest(c.serial)).body.Some?
                    && Token.FromKwargs(net(|w.log| + 1, TokenRequest(c.serial)).body.value) == Ok(r.result.value))
    ensures r.result.Ok? ==> r.world.client.token == Some(r.result.value)
    ensures r.result.Err? ==> r.world.client == w.client
  {
    match w.client.config
    case None => Step(w, Err(AttributeError))
    case Some(c) =>
      if !Truthy(c.username) && !Truthy(c.password) && !Truthy(c.serial) then
        Step(w, Err(Raised(CredentialsMessage)))
      else
        var login := Login(c.username, c.password);
        var w1 := w.(log := w.log + [login]);
        if net(|w.log|, login).Failed? then Step(w1, Err(TransportError))
        else
          var request := TokenRequest(c.serial);
          var w2 := w1.(log := w1.log + [request]);
          match net(|w1.log|, request)
          case Failed => Step(w2, Err(TransportError))
          case Received(None) => Step(w2, Err(JsonDecodeError))
          case Received(Some(body)) =>
            match Token.FromKwargs(body)
            case Err(e) => Step(w2, Err(e))
            case Ok(t) =>
              Step(w2.(client := w2.client.(token := Some(t))), Ok(t))
  }

  /** `create_envoy_session()`: reuse the cached session if there is one;
      otherwise send one check request carrying the token as a bearer
      credential and cache the new session. The token's validity is not
      consulted. */
  function CreateEnvoySession(w: World, net: Network): (r: Step<Session>)
    ensures r.world.file == w.file
    ensures r.world.client.config == w.client.config && r.world.client.token == w.client.token
    ensures w.client.session.Some? ==> r == Step(w, Ok(w.client.session.value))
    ensures w.client.session.None? && (w.client.config.None? || w.client.token.None?) ==>
              r == Step(w, Err(AttributeError))
    ensures w.client.session.None? && w.client.config.Some? && w.client.token.Some? ==>
              var check := CheckJwt(w.client.config.value.envoy, w.client.token.value.token);
              && r.world.log == w.log + [check]
              && (r.result.Ok? <==> net(|w.log|, check).Received?)
              && (r.result.Ok? ==> r.result.value == Session(|w.log|, w.client.token.value.token))
    ensures r.result.Ok? ==> r.world.client.session == Some(r.result.value)
    ensures r.result.Err? ==> r.world.client == w.client
  {
    match w.client.session
    case Some(s) => Step(w, Ok(s))
    case None =>
      match (w.client.config, w.client.token)
      case (Some(c), Some(t)) =>
        var check := CheckJwt(c.envoy, t.token);
        var w1 := w.(log := w.log + [check]);
        if net(|w.log|, check).Failed? then Step(w1, Err(TransportError))
        else
          var s := Session(|w.log|, t.token);
          Step(w1.(client := w1.client.(session := Some(s))), Ok(s))
      case _ => Step(w, Err(AttributeError))
  }

  /** Each endpoint method: obtain the session first, then send the data
      request through it and decode the body. */
  function Fetch(w: World, net: Network, e: Endpoint): (r: Step<Json>)
    ensures r.world.file == w.file
    ensures r.world.client.config == w.client.config && r.world.client.token == w.client.token
    ensures w.client.session.Some? ==> r.world.client.session == w.client.session
    ensures ExtendsWith(w.log, r.world.log, IsGatewayRequest)
    ensures |r.world.log| <= |w.log| + (if w.client.session.Some? then 1 else 2)
    // the session comes first: a new session is opened by a check request
    // at the head of the new requests ...
    ensures w.client.session.None? && |r.world.log| > |w.log| ==>
              && w.client.config.Some? && w.client.token.Some?
              && r.world.log[|w.log|] == CheckJwt(w.client.config.value.envoy, w.client.token.value.token)
              && (r.world.client.session.Some? ==>
                    r.world.client.session.value == Session(|w.log|, w.client.token.value.token))
    ensures w.client.session.None? && r.world.client.session.Some? ==>
              w.client.token.Some? && r.world.client.session.value.bearer == w.client.token.value.token
    // ... and every data request goes through the session cached afterwards
    ensures forall i :: |w.log| <= i < |r.world.log| && r.world.log[i].EnvoyGet? ==>
              && i == |r.world.log| - 1
              && w.client.config.Some?
              && r.world.client.session == Some(r.world.log[i].via)
              && r.world.log[i] == EnvoyGet(w.client.config.value.envoy, e, r.world.log[i].via)
    ensures r.result.Ok? ==>
              && r.world.client.session.Some? && w.client.config.Some?
              && |r.world.log| == |w.log| + (if w.client.session.Some? then 1 else 2)
              && r.world.log[|r.world.log| - 1] == EnvoyGet(w.client.config.value.envoy, e, r.world.client.session.value)
              && net(|r.world.log| - 1, r.world.log[|r.world.log| - 1]) == Received(Some(r.result.value))
  {
    var s := CreateEnvoySession(w, net);
    match s.result
    case Err(err) => Step(s.world, Err(err))
    case Ok(session) =>
      match s.world.client.config
      case None => Step(s.world, Err(AttributeError))
      case Some(c) =>
        var request := EnvoyGet(c.envoy, e, session);
        var w1 := s.world.(log := s.world.log + [request]);
        match net(|s.world.log|, request)
        case Failed => Step(w1, Err(TransportError))
        case Received(None) => Step(w1, Err(JsonDecodeError))
        case Received(Some(body)) => Step(w1, Ok(body))
  }

  /** The document `save` writes. */
  function SavedDocument(c: EnphaseConfig, t: EnphaseToken): Json {
    FieldsDict(["config", "token"], [ConfigAsDict(c), TokenAsDict(t)])
  }

  /** `save()`: the file is opened for writing, which empties it, before the
      document is built; with no config or no token that raises and leaves
      the file empty. */
  function Save(w: World): (r: Step<()>)
    ensures r.world.client == w.client && r.world.log == w.log
    ensures r.result.Ok? <==> w.client.config.Some? && w.client.token.Some?
    ensures r.result.Ok? ==> r.world.file == Holds(SavedDocument(w.client.config.value, w.client.token.value))
    ensures r.result.Err? ==> r.result.error == AttributeError && r.world.file == Unreadable
  {
    match (w.client.config, w.client.token)
    case (Some(c), Some(t)) => Step(w.(file := Holds(SavedDocument(c, t))), Ok(()))
    case _ => Step(w.(file := Unreadable), Err(AttributeError))
  }

  /** `load()` at time `now`: read the file, set the config, rebuild the
      token, and when that token is not valid fetch a new one and save. The
      cached gateway session is left as it was. */
  function Load(w: World, net: Network, now: int): (r: Step<()>)
    ensures r.world.client.session == w.client.session
    ensures ExtendsWith(w.log, r.world.log, IsCloudRequest) && |r.world.log| <= |w.log| + 2
    ensures w.file.Absent? ==> r == Step(w, Err(FileNotFound))
    ensures w.file.Unreadable? ==> r == Step(w, Err(JsonDecodeError))
    ensures w.file.Holds? && !w.file.doc.JObject? ==> r == Step(w, Err(AttributeError))
    // a corrupt document: the config setter's error leaves the client as it was
    ensures w.file.Holds? && w.file.doc.JObject? ==>
              var s1 := SetConfig(w, Plain(Get(w.file.doc.fields, "config")));
              && (s1.result.Err? ==> r == Step(w, s1.result))
              && (!Get(w.file.doc.fields, "config").JObject? ==> r == Step(w, Err(Raised(UnknownConfigMessage))))
              // a bad token raises after the config has already been replaced
              && (s1.result.Ok? && Token.FromKwargs(Get(w.file.doc.fields, "token")).Err? ==>
                    r == Step(s1.world, Err(TypeError)))
    ensures r.result.Ok? ==> r.world.client.config.Some? && r.world.client.token.Some?
    ensures r.result.Ok? && r.world.log != w.log ==>
              r.world.file == Holds(SavedDocument(r.world.client.config.value, r.world.client.token.value))
  {
    match w.file
    case Absent => Step(w, Err(FileNotFound))
    case Unreadable => Step(w, Err(JsonDecodeError))
    case Holds(d) =>
      if !d.JObject? then Step(w, Err(AttributeError))
      else
        var s1 := SetConfig(w, Plain(Get(d.fields, "config")));
        if s1.result.Err? then s1
        else
          match Token.FromKwargs(Get(d.fields, "token"))
          case Err(e) => Step(s1.world, Err(e))
          case Ok(t) =>
            var w2 := s1.world.(client := s1.world.client.(token := Some(t)));
            match IsValid(t, now)
            case Err(e) => Step(w2, Err(e))
            case Ok(true) => Step(w2, Ok(()))
            case Ok(false) => Renew(w2, net)
  }

  /** The renewal branch of `load`: `get_new_token()` then `save()`. */
  function Renew(w: World, net: Network): (r: Step<()>)
    ensures r.world.client.config == w.client.config && r.world.client.session == w.client.session
    ensures ExtendsWith(w.log, r.world.log, IsCloudRequest) && |r.world.log| <= |w.log| + 2
    ensures r.result.Ok? ==>
              && w.client.config.Some? && r.world.client.token.Some?
              && r.world.client == w.client.(token := r.world.client.token)
              && r.world.file == Holds(SavedDocument(w.client.config.value, r.world.client.token.value))
              && r.world.log != w.log
  {
    var s := GetNewToken(w, net);
    if s.result.Err? then Step(s.world, Err(s.result.error))
    else Save(s.world)
  }
}

=== FILE: inventory.dfy ===
/** The reduction of the gateway's ensemble inventory (a list of device
    groups, each a dict with a `type` and a `devices` list) to a grid status
    and the battery charge levels, and the bracketed rendering of the levels. */
module Inventory {
  import opened PyValues
  import opened PyInt

  datatype GridStatus = Up | Down

  function Label(g: GridStatus): string {
    match g
    case Up => "UP"
    case Down => "DOWN"
  }

  /** The dict `process_ensemble_inventory` returns. `batteryLevel` is the
      exact mean; the float rounding of Python's `/` is not modelled. */
  datatype Summary = Summary(gridStatus: GridStatus, batteryLevels: seq<int>, batteryLevel: real)

  const Enpower := "ENPOWER"
  const Encharge := "ENCHARGE"

  /** A dict whose `type` is `kind`. */
  predicate IsGroup(item: Json, kind: string) {
    item.JObject? && Get(item.fields, "type") == JString(kind)
  }

  /** Items `lo` up to `hi` are dicts of another type: the search for `kind`
      walks past them without raising. */
  predicate PassedOver(items: seq<Json>, kind: string, lo: nat, hi: nat)
    requires lo <= hi <= |items|
  {
    forall j :: lo <= j < hi ==> items[j].JObject? && !IsGroup(items[j], kind)
  }

  /** `p` is where `next(item for item in items if item.get('type') == kind)`
      stops. */
  predicate IsFirst(items: seq<Json>, kind: string, p: nat) {
    p < |items| && IsGroup(items[p], kind) && PassedOver(items, kind, 0, p)
  }

  /** The `next(...)` search from position `from`: the first dict of type
      `kind`; AttributeError at a non-dict met before it; StopIteration when
      there is none. */
  function FindGroup(items: seq<Json>, kind: string, from: nat): (r: Result<nat>)
    requires from <= |items|
    decreases |items| - from
    ensures r.Ok? ==> from <= r.value < |items| && IsGroup(items[r.value], kind)
                      && PassedOver(items, kind, from, r.value)
    ensures r == Err(MissingGroup(kind)) <==> PassedOver(items, kind, from, |items|)
    ensures r.Err? ==> r.error == MissingGroup(kind) || r.error == AttributeError
    ensures r == Err(AttributeError) ==>
              exists j :: from <= j < |items| && !items[j].JObject? && PassedOver(items, kind, from, j)
  {
    if from == |items| then Err(MissingGroup(kind))
    else if !items[from].JObject? then Err(AttributeError)
    else if IsGroup(items[from], kind) then Ok(from)
    else FindGroup(items, kind, from + 1)
  }

  /** The search over the whole list stops exactly at the first group of its
      kind. */
  lemma FindGroupIsFirst(items: seq<Json>, kind: string, p: nat)
    requires IsFirst(items, kind, p)
    ensures FindGroup(items, kind, 0) == Ok(p)
  {
  }

  /** `devices[0]`, as the receiver of `.get`: IndexError on an empty list
      or string, KeyError on a dict, TypeError on a value that cannot be
      indexed, AttributeError when the first element is not a dict. */
  function FirstDevice(devices: Json): (r: Result<seq<(string, Json)>>)
    ensures r.Ok? <==> devices.JArray? && |devices.items| > 0 && devices.items[0].JObject?
    ensures r.Ok? ==> r.value == devices.items[0].fields
    ensures devices.JArray? && |devices.items| == 0 ==> r == Err(IndexError)
    ensures devices.JNull? ==> r == Err(TypeError)
  {
    match devices
    case JArray(xs) =>
      if |xs| == 0 then Err(IndexError)
      else if xs[0].JObject? then Ok(xs[0].fields)
      else Err(AttributeError)
    case JString(s) => if |s| == 0 then Err(IndexError) else Err(AttributeError)
    case JObject(_) => Err(KeyError)
    case _ => Err(TypeError)
  }

  /** The grid is up exactly when the device reports its mains relay closed. */
  function GridOf(device: seq<(string, Json)>): (g: GridStatus)
    ensures g == Up <==> Get(device, "mains_oper_state") == JString("closed")
  {
    if Get(device, "mains_oper_state") == JString("closed") then Up else Down
  }

  /** `int(device.get("percentFull"))` for one battery device. */
  function Level(device: Json): (r: Result<int>)
    ensures !device.JObject? ==> r == Err(AttributeError)
    ensures device.JObject? ==> r == PyIntOf(Get(device.fields, "percentFull"))
  {
    if device.JObject? then PyIntOf(Get(device.fields, "percentFull")) else Err(AttributeError)
  }

  /** The loop over the battery devices from position `from`: one level per
      device, in device order, stopping at the first device that raises. */
  function BatteryLevels(devices: seq<Json>, from: nat): (r: Result<seq<int>>)
    requires from <= |devices|
    decreases |devices| - from
    ensures (forall k :: from <= k < |devices| ==> Level(devices[k]).Ok?) ==> r.Ok?
    ensures r.Ok? ==> |r.value| == |devices| - from
    ensures r.Ok? ==> forall k :: from <= k < |devices| ==> Level(devices[k]) == Ok(r.value[k - from])
  {
    if from == |devices| then Ok([])
    else
      var level :- Level(devices[from]);
      var rest :- BatteryLevels(devices, from + 1);
      Ok([level] + rest)
  }

  /** A failing loop raises the error of the first device without a level. */
  lemma {:induction false} BatteryLevelsFailure(devices: seq<Json>, from: nat)
    requires from <= |devices|
    decreases |devices| - from
    ensures BatteryLevels(devices, from).Err? ==>
              exists k :: from <= k < |devices| && Level(devices[k]) == Err(BatteryLevels(devices, from).error)
                          && forall j :: from <= j < k ==> Level(devices[j]).Ok?
  {
    var r := BatteryLevels(devices, from);
    if r.Err? {
      if Level(devices[from]).Err? {
        assert Level(devices[from]) == Err(r.error);
      } else {
        BatteryLevelsFailure(devices, from + 1);
        var k :| from + 1 <= k < |devices| && Level(devices[k]) == Err(r.error)
                 && forall j :: from + 1 <= j < k ==> Level(devices[j]).Ok?;
        assert forall j :: from <= j < k ==> Level(devices[j]).Ok?;
      }
    }
  }

  function Sum(xs: seq<int>): int {
    if |xs| == 0 then 0 else Sum(xs[..|xs| - 1]) + xs[|xs| - 1]
  }

  /** `sum(xs) / len(xs)`, exactly. */
  function Mean(xs: seq<int>): (m: real)
    requires |xs| > 0
    ensures m * |xs| as real == Sum(xs) as real
  {
    Sum(xs) as real / |xs| as real
  }

  /** Bounds on every element bound the sum. */
  lemma {:induction false} SumBounds(xs: seq<int>, lo: int, hi: int)
    requires forall k :: 0 <= k < |xs| ==> lo <= xs[k] <= hi
    ensures lo * |xs| <= Sum(xs) <= hi * |xs|
  {
    if |xs| > 0 {
      var n := |xs|;
      var init := xs[..n - 1];
      assert forall k :: 0 <= k < |init| ==> init[k] == xs[k];
      SumBounds(init, lo, hi);
      assert Sum(xs) == Sum(init) + xs[n - 1];
      assert lo * n == lo * (n - 1) + lo && hi * n == hi * (n - 1) + hi;
    }
  }

  /** 2^1024 - 2^970, half way between the largest finite double and 2^1024.
      Python's `int / int` rounds the exact quotient to the nearest double,
      ties to even, and raises OverflowError when that rounding reaches
      2^1024: exactly when the quotient's magnitude is at least this bound. */
  const FloatOverflowAt: int :=
    0xFFFF_FFFF_FFFF_FC00_0000_0000_0000_0000_0000_0000_0000_0000_0000_0000_0000_0000_0000_0000_0000_0000_0000_0000_0000_0000_0000_0000_0000_0000_0000_0000_0000_0000_0000_0000_0000_0000_0000_0000_0000_0000_0000_0000_0000_0000_0000_0000_0000_0000_0000_0000_0000_0000_0000_0000_0000_0000_0000_0000_0000_0000_0000_0000_0000_0000

  /** The exact quotient `x` of an int division rounds to a finite float. */
  predicate FitsFloat(x: real) {
    -(FloatOverflowAt as real) < x < FloatOverflowAt as real
  }

  /** The mean lies between any lower and upper bound of the levels; in
      particular percentages in [0, 100] average to a percentage. */
  lemma MeanBounds(xs: seq<int>, lo: int, hi: int)
    requires |xs| > 0
    requires forall k :: 0 <= k < |xs| ==> lo <= xs[k] <= hi
    ensures lo as real <= Mean(xs) <= hi as real
  {
    SumBounds(xs, lo, hi);
    var n := |xs| as real;
    var m := Mean(xs);
    RealOfProduct(lo, |xs|);
    RealOfProduct(hi, |xs|);
    assert lo as real * n <= Sum(xs) as real <= hi as real * n;
    ScaledBound(lo as real, m, n);
    ScaledBound(m, hi as real, n);
  }

  lemma RealOfProduct(a: int, b: int)
    ensures (a * b) as real == a as real * b as real
  {
  }

  /** Dividing both sides by the same positive number keeps the order. */
  lemma ScaledBound(a: real, b: real, n: real)
    requires n > 0.0 && a * n <= b * n
    ensures a <= b
  {
  }

  /** The summary of the ENCHARGE device list, given the grid status:
      ZeroDivisionError without a battery, OverflowError when the mean is
      beyond float range. */
  function Summarize(grid: GridStatus, devices: seq<Json>): (r: Result<Summary>)
    ensures r.Ok? ==> |devices| > 0 && forall k :: 0 <= k < |devices| ==> Level(devices[k]).Ok?
    ensures |devices| > 0 && (forall k :: 0 <= k < |devices| ==> Level(devices[k]).Ok?) ==>
              r.Ok? || r == Err(OverflowError)
    ensures |devices| == 0 ==> r == Err(ZeroDivisionError)
    ensures r.Ok? ==>
              && r.value.gridStatus == grid
              && |r.value.batteryLevels| == |devices|
              && (forall k :: 0 <= k < |devices| ==> Level(devices[k]) == Ok(r.value.batteryLevels[k]))
              && r.value.batteryLevel == Mean(r.value.batteryLevels)
              && FitsFloat(r.value.batteryLevel)
  {
    var levels :- BatteryLevels(devices, 0);
    if |levels| == 0 then Err(ZeroDivisionError)
    else if !FitsFloat(Mean(levels)) then Err(OverflowError)
    else Ok(Summary(grid, levels, Mean(levels)))
  }

  /** Given the level of every device, the summary exists exactly when there
      is a device and the mean of the levels is within float range. */
  lemma SummarizeOfLevels(grid: GridStatus, devices: seq<Json>, levels: seq<int>)
    requires |levels| == |devices|
    requires forall k :: 0 <= k < |devices| ==> Level(devices[k]) == Ok(levels[k])
    ensures |devices| > 0 ==>
              Summarize(grid, devices) ==
                (if FitsFloat(Mean(levels)) then Ok(Summary(grid, levels, Mean(levels))) else Err(OverflowError))
  {
    var found := BatteryLevels(devices, 0);
    assert found.Ok?;
    assert found.value == levels;
  }

  /** `process_ensemble_inventory(data)`. */
  function ProcessEnsembleInventory(data: Json): (r: Result<Summary>)
    ensures Iterate(data).Err? ==> r == Err(TypeError)
    ensures Iterate(data).Ok? && PassedOver(Iterate(data).value, Enpower, 0, |Iterate(data).value|) ==>
              r == Err(MissingGroup(Enpower))
    ensures r.Ok? ==> |r.value.batteryLevels| > 0
    ensures r.Ok? ==> r.value.batteryLevel == Mean(r.value.batteryLevels) && FitsFloat(r.value.batteryLevel)
  {
    var items :- Iterate(data);
    var p :- FindGroup(items, Enpower, 0);
    var first :- FirstDevice(Get(items[p].fields, "devices"));
    var q :- FindGroup(items, Encharge, 0);
    var devices :- Iterate(Get(items[q].fields, "devices"));
    Summarize(GridOf(first), devices)
  }

  /** With both groups present at first positions `p` and `q`, the reduction
      is the summary of the ENCHARGE devices under the grid status of the
      first ENPOWER device: it succeeds only when there is at least one
      battery device and every battery device yields a level, and then fails
      only on a mean beyond float range. */
  lemma ReduceFromFirstGroups(data: Json, items: seq<Json>, p: nat, first: seq<(string, Json)>, q: nat, devices: seq<Json>)
    requires Iterate(data) == Ok(items)
    requires IsFirst(items, Enpower, p)
    requires FirstDevice(Get(items[p].fields, "devices")) == Ok(first)
    requires IsFirst(items, Encharge, q)
    requires Iterate(Get(items[q].fields, "devices")) == Ok(devices)
    ensures var r := ProcessEnsembleInventory(data);
            && r == Summarize(GridOf(first), devices)
            && (r.Ok? ==> |devices| > 0 && forall k :: 0 <= k < |devices| ==> Level(devices[k]).Ok?)
            && (|devices| > 0 && (forall k :: 0 <= k < |devices| ==> Level(devices[k]).Ok?) ==>
                  r.Ok? || r == Err(OverflowError))
            && (r.Ok? ==>
                  && (r.value.gridStatus == Up <==> Get(first, "mains_oper_state") == JString("closed"))
                  && |r.value.batteryLevels| == |devices|
                  && (forall k :: 0 <= k < |devices| ==> Level(devices[k]) == Ok(r.value.batteryLevels[k]))
                  && r.value.batteryLevel == Mean(r.value.batteryLevels))
            && (|devices| == 0 ==> r == Err(ZeroDivisionError))
  {
    FindGroupIsFirst(items, Enpower, p);
    FindGroupIsFirst(items, Encharge, q);
  }

  /** The same, given the level of every battery device: the reduction is
      the summary of those levels unless there are none or their mean is
      beyond float range. */
  lemma ReduceToLevels(data: Json, items: seq<Json>, p: nat, first: seq<(string, Json)>, q: nat,
                       devices: seq<Json>, levels: seq<int>)
    requires Iterate(data) == Ok(items)
    requires IsFirst(items, Enpower, p)
    requires FirstDevice(Get(items[p].fields, "devices")) == Ok(first)
    requires IsFirst(items, Encharge, q)
    requires Iterate(Get(items[q].fields, "devices")) == Ok(devices)
    requires |levels| == |devices| && forall k :: 0 <= k < |devices| ==> Level(devices[k]) == Ok(levels[k])
    ensures ProcessEnsembleInventory(data) ==
              if |levels| == 0 then Err(ZeroDivisionError)
              else if FitsFloat(Mean(levels)) then Ok(Summary(GridOf(first), levels, Mean(levels)))
              else Err(OverflowError)
  {
    ReduceFromFirstGroups(data, items, p, first, q, devices);
    SummarizeOfLevels(GridOf(first), devices, levels);
  }

  /** With no ENPOWER group the search for it raises first, whatever else
      the list holds. */
  lemma ReduceWithoutEnpower(data: Json, items: seq<Json>)
    requires Iterate(data) == Ok(items)
    requires PassedOver(items, Enpower, 0, |items|)
    ensures ProcessEnsembleInventory(data) == Err(MissingGroup(Enpower))
  {
  }

  /** An ENPOWER group with an empty device list raises IndexError. */
  lemma ReduceWithoutEnpowerDevice(data: Json, items: seq<Json>, p: nat)
    requires Iterate(data) == Ok(items)
    requires IsFirst(items, Enpower, p)
    requires Get(items[p].fields, "devices") == JArray([])
    ensures ProcessEnsembleInventory(data) == Err(IndexError)
  {
    FindGroupIsFirst(items, Enpower, p);
  }

  /** With a usable ENPOWER group but no ENCHARGE group, the second search
      raises. */
  lemma ReduceWithoutEncharge(data: Json, items: seq<Json>, p: nat)
    requires Iterate(data) == Ok(items)
    requires IsFirst(items, Enpower, p)
    requires FirstDevice(Get(items[p].fields, "devices")).Ok?
    requires PassedOver(items, Encharge, 0, |items|)
    ensures ProcessEnsembleInventory(data) == Err(MissingGroup(Encharge))
  {
    FindGroupIsFirst(items, Enpower, p);
  }

  /** The levels joined by ", " (`', '.join(str(x) for x in levels)`). */
  function Join(levels: seq<int>): (r: string)
    ensures r == "" <==> |levels| == 0
  {
    if |levels| == 0 then ""
    else if |levels| == 1 then Decimal(levels[0])
    else Decimal(levels[0]) + ", " + Join(levels[1..])
  }

  /** The bracketed list printed after the battery level. */
  function RenderLevels(levels: seq<int>): (r: string)
    ensures r == "[]" <==> |levels| == 0
  {
    "[" + Join(levels) + "]"
  }

  /** The first comma in `s`, or `|s|` when there is none. */
  function IndexOfComma(s: string): (k: nat)
    ensures k <= |s|
    ensures forall j :: 0 <= j < k ==> s[j] != ','
    ensures k < |s| ==> s[k] == ','
  {
    if |s| == 0 || s[0] == ',' then 0 else 1 + IndexOfComma(s[1..])
  }

  /** Reads back a non-empty ", "-separated list of integers, each with `int`. */
  function ParseItems(s: string): (r: Option<seq<int>>)
    ensures r.Some? ==> |r.value| > 0
    decreases |s|
  {
    var k := IndexOfComma(s);
    match ParseIntString(s[..k])
    case Err(_) => None
    case Ok(n) =>
      if k == |s| then Some([n])
      else if k + 1 < |s| && s[k + 1] == ' ' then
        match ParseItems(s[k + 2..])
        case None => None
        case Some(rest) => Some([n] + rest)
      else None
  }

  /** Reads back a rendered list: brackets around nothing or around
      ", "-separated integers. */
  function ParseLevels(s: string): Option<seq<int>> {
    if |s| >= 2 && s[0] == '[' && s[|s| - 1] == ']' then
      var inner := s[1..|s| - 1];
      if |inner| == 0 then Some([]) else ParseItems(inner)
    else None
  }

  /** The first comma of `a + b`, when `a` has none and `b` is empty or
      starts with one, is where `b` starts. */
  lemma IndexOfCommaAfter(a: string, b: string)
    requires forall j :: 0 <= j < |a| ==> a[j] != ','
    requires |b| == 0 || b[0] == ','
    ensures IndexOfComma(a + b) == |a|
  {
    var s := a + b;
    assert forall j :: 0 <= j < |a| ==> s[j] == a[j];
    assert |b| > 0 ==> s[|a|] == b[0];
  }

  /** One step of reading back: an integer, ", ", and the rest. */
  lemma ParseItemsStep(n: int, tail: string)
    ensures ParseItems(Decimal(n) + ", " + tail) ==
            (match ParseItems(tail) case None => None case Some(rest) => Some([n] + rest))
  {
    var head := Decimal(n);
    var s := head + ", " + tail;
    assert s == head + (", " + tail);
    IndexOfCommaAfter(head, ", " + tail);
    assert s[..|head|] == head;
    assert s[|head| + 2..] == tail;
    ParseDecimal(n);
  }

  /** A lone integer reads back as itself. */
  lemma ParseSingleItem(n: int)
    ensures ParseItems(Decimal(n)) == Some([n])
  {
    var head := Decimal(n);
    ParseDecimal(n);
    IndexOfCommaAfter(head, "");
    assert head + "" == head;
    assert head[..|head|] == head;
  }

  lemma {:induction false} ParseItemsOfJoin(levels: seq<int>)
    requires |levels| > 0
    ensures ParseItems(Join(levels)) == Some(levels)
    decreases |levels|
  {
    if |levels| == 1 {
      ParseSingleItem(levels[0]);
      assert levels == [levels[0]];
    } else {
      ParseItemsStep(levels[0], Join(levels[1..]));
      ParseItemsOfJoin(levels[1..]);
      assert [levels[0]] + levels[1..] == levels;
    }
  }

  /** The rendered list reads back, with `int`, as the levels in their
      original order. */
  lemma RenderRoundTrip(levels: seq<int>)
    ensures ParseLevels(RenderLevels(levels)) == Some(levels)
  {
    var s := RenderLevels(levels);
    assert s[1..|s| - 1] == Join(levels);
    if |levels| > 0 {
      ParseItemsOfJoin(levels);
    }
  }
}

=== FILE: lifecycle.dfy ===
/** Properties of the `Enphase` client's credential and session lifecycle
    that relate several calls: the credential check, the session cache, the
    save/load round trip, the renew-if-invalid decision of `load`, and the
    invariant that every gateway data request goes through a session opened
    earlier by a check request. */
module Lifecycle {
  import opened PyValues
  import opened Token
  import opened Client

  /** `get_new_token` refuses (without sending anything) exactly when all of
      username, password and serial are falsy; one truthy credential is
      enough for it to log in. */
  lemma OnlyAllEmptyCredentialsRejected(w: World, net: Network)
    requires w.client.config.Some?
    ensures var c := w.client.config.value;
            var r := GetNewToken(w, net);
            && (r.result == Err(Raised(CredentialsMessage)) <==>
                  !Truthy(c.username) && !Truthy(c.password) && !Truthy(c.serial))
            && (r.world.log != w.log <==> Truthy(c.username) || Truthy(c.password) || Truthy(c.serial))
  {
  }

  /** A second `create_envoy_session` right after a successful first one is
      a cache hit: same session, no further request. */
  lemma SecondSessionIsCacheHit(w: World, net: Network)
    ensures var first := CreateEnvoySession(w, net);
            var second := CreateEnvoySession(first.world, net);
            && (first.result.Ok? ==> second == Step(first.world, first.result))
            && (first.result.Ok? ==> |second.world.log| == |w.log| + (if w.client.session.Some? then 0 else 1))
  {
  }

  /** Renewing the token does not invalidate the cached session: the next
      `create_envoy_session` still returns the session opened with the old
      bearer value, without a request. */
  lemma RenewalKeepsCachedSession(w: World, net: Network)
    requires w.client.session.Some?
    ensures var renewed := GetNewToken(w, net);
            && renewed.world.client.session == w.client.session
            && CreateEnvoySession(renewed.world, net) == Step(renewed.world, Ok(w.client.session.value))
  {
  }

  /** The session cache never looks at the token's validity: with a cached
      session and an expired token, an endpoint call sends only its data
      request, through the cached session, and never a cloud request. */
  lemma ExpiredTokenStillUsesCachedSession(w: World, net: Network, e: Endpoint, now: int)
    requires w.client.session.Some? && w.client.config.Some? && w.client.token.Some?
    requires IsValid(w.client.token.value, now) == Ok(false)
    ensures var r := Fetch(w, net, e);
            && r.world.log == w.log + [EnvoyGet(w.client.config.value.envoy, e, w.client.session.value)]
            && r.world.client == w.client
  {
  }

  lemma SavedDocumentFields(c: EnphaseConfig, t: EnphaseToken)
    ensures SavedDocument(c, t).JObject?
    ensures Get(SavedDocument(c, t).fields, "config") == ConfigAsDict(c)
    ensures Get(SavedDocument(c, t).fields, "token") == TokenAsDict(t)
  {
    var d := SavedDocument(c, t);
    GetOfDistinct(d.fields, 0);
    GetOfDistinct(d.fields, 1);
  }

  /** `load` renews exactly when the stored token is judged invalid: a valid
      token means no request at all; an invalid one means a login (when any
      credential is present) and, on success, the new token saved with the
      configuration; a malformed one is an error with no request. */
  lemma LoadRenewsOnlyWhenInvalid(w: World, net: Network, now: int, c: EnphaseConfig, t: EnphaseToken)
    requires w.file.Holds? && w.file.doc.JObject?
    requires ConfigFromKwargs(Get(w.file.doc.fields, "config")) == Ok(c)
    requires Token.FromKwargs(Get(w.file.doc.fields, "token")) == Ok(t)
    ensures var r := Load(w, net, now);
            && r.world.client.config == Some(c)
            && (IsValid(t, now) == Ok(true) ==>
                  r == Step(w.(client := w.client.(config := Some(c), token := Some(t))), Ok(())))
            && (IsValid(t, now).Err? ==>
                  r == Step(w.(client := w.client.(config := Some(c), token := Some(t))), Err(IsValid(t, now).error)))
            && (IsValid(t, now) == Ok(false) ==>
                  && (Truthy(c.username) || Truthy(c.password) || Truthy(c.serial) ==>
                        |r.world.log| > |w.log| && r.world.log[|w.log|] == Login(c.username, c.password))
                  && (!Truthy(c.username) && !Truthy(c.password) && !Truthy(c.serial) ==>
                        r.result == Err(Raised(CredentialsMessage)) && r.world.log == w.log)
                  && (r.result.Ok? ==>
                        && r.world.log == w.log + [Login(c.username, c.password), TokenRequest(c.serial)]
                        && r.world.client.token.Some?
                        && net(|w.log| + 1, TokenRequest(c.serial)).Received?
                        && net(|w.log| + 1, TokenRequest(c.serial)).body.Some?
                        && Token.FromKwargs(net(|w.log| + 1, TokenRequest(c.serial)).body.value) == Ok(r.world.client.token.value)
                        && r.world.file == Holds(SavedDocument(c, r.world.client.token.value))))
  {
    var w2 := w.(client := w.client.(config := Some(c), token := Some(t)));
    LoadReachesValidity(w, net, now, c, t);
    if IsValid(t, now) == Ok(false) {
      var s3 := GetNewToken(w2, net);
      if s3.result.Ok? {
        assert Renew(w2, net) == Save(s3.world);
      }
    }
  }

  /** A file with a well-formed config and token is read into the client,
      and then only the validity of the token decides. */
  lemma LoadReachesValidity(w: World, net: Network, now: int, c: EnphaseConfig, t: EnphaseToken)
    requires w.file.Holds? && w.file.doc.JObject?
    requires ConfigFromKwargs(Get(w.file.doc.fields, "config")) == Ok(c)
    requires Token.FromKwargs(Get(w.file.doc.fields, "token")) == Ok(t)
    ensures var w2 := w.(client := w.client.(config := Some(c), token := Some(t)));
            Load(w, net, now) ==
              match IsValid(t, now)
              case Err(e) => Step(w2, Err(e))
              case Ok(true) => Step(w2, Ok(()))
              case Ok(false) => Renew(w2, net)
  {
    var s1 := SetConfig(w, Plain(Get(w.file.doc.fields, "config")));
    assert s1.world == w.(client := w.client.(config := Some(c)));
  }

  /** What `load` reads from a file written by `save`. */
  lemma SavedDocumentReadsBack(c: EnphaseConfig, t: EnphaseToken)
    ensures SavedDocument(c, t).JObject?
    ensures ConfigFromKwargs(Get(SavedDocument(c, t).fields, "config")) == Ok(c)
    ensures Token.FromKwargs(Get(SavedDocument(c, t).fields, "token")) == Ok(t)
  {
    SavedDocumentFields(c, t);
    ConfigFromKwargsOfAsDict(c);
    FromKwargsOfTokenAsDict(t);
  }

  /** `load` of a file written by `save` with configuration `c` and token
      `t`, when `t` is not judged invalid. */
  lemma LoadOfSavedKeepsToken(w: World, net: Network, now: int, c: EnphaseConfig, t: EnphaseToken)
    requires w.file == Holds(SavedDocument(c, t))
    requires IsValid(t, now) != Ok(false)
    ensures var r := Load(w, net, now);
            && r.world.client == w.client.(config := Some(c), token := Some(t))
            && r.world.log == w.log
            && r.world.file == w.file
            && (r.result.Ok? <==> IsValid(t, now) == Ok(true))
  {
    SavedDocumentReadsBack(c, t);
    LoadReachesValidity(w, net, now, c, t);
  }

  /** `load` of a file written by `save` with configuration `c` and token
      `t`, when `t` is judged invalid: it never both succeeds and sends
      nothing. */
  lemma LoadOfSavedRenews(w: World, net: Network, now: int, c: EnphaseConfig, t: EnphaseToken)
    requires w.file == Holds(SavedDocument(c, t))
    requires IsValid(t, now) == Ok(false)
    ensures var r := Load(w, net, now);
            && r.world.client.config == Some(c)
            && (r.result.Ok? ==> r.world.log != w.log)
  {
    SavedDocumentReadsBack(c, t);
    LoadRenewsOnlyWhenInvalid(w, net, now, c, t);
    var r := Load(w, net, now);
    assert r.result.Ok? ==> |r.world.log| == |w.log| + 2;
  }

  /** `save` then `load` (into any client) restores the configuration and,
      unless the token was judged invalid and renewed, the token too, with
      no request sent; a valid token makes `load` succeed. */
  lemma SaveThenLoad(w: World, other: Enphase, net: Network, now: int)
    requires w.client.config.Some? && w.client.token.Some?
    ensures var saved := Save(w).world;
            var r := Load(saved.(client := other), net, now);
            var c := w.client.config.value;
            var t := w.client.token.value;
            && r.world.client.config == Some(c)
            && r.world.client.session == other.session
            && (IsValid(t, now) != Ok(false) ==>
                  && r.world.client.token == Some(t)
                  && r.world.log == w.log
                  && r.world.file == saved.file)
            && (IsValid(t, now) == Ok(true) <==> r.result.Ok? && r.world.log == w.log)
  {
    var saved := Save(w).world;
    var loading := saved.(client := other);
    if IsValid(w.client.token.value, now) == Ok(false) {
      LoadOfSavedRenews(loading, net, now, w.client.config.value, w.client.token.value);
    } else {
      LoadOfSavedKeepsToken(loading, net, now, w.client.config.value, w.client.token.value);
    }
  }

  /** The session `s` was opened by the check request at `s.createdAt`,
      which comes before position `bound` of the log. */
  predicate OpenedBefore(log: seq<Request>, s: Session, bound: nat) {
    s.createdAt < bound <= |log| && log[s.createdAt].CheckJwt? && log[s.createdAt].bearer == s.bearer
  }

  /** The cached session and the session of every data request in the log
      were opened by an earlier check request. */
  predicate SessionFirst(w: World) {
    && (w.client.session.Some? ==> OpenedBefore(w.log, w.client.session.value, |w.log|))
    && (forall i :: 0 <= i < |w.log| && w.log[i].EnvoyGet? ==> OpenedBefore(w.log, w.log[i].via, i))
  }

  lemma FreshClientIsSessionFirst(file: ConfigFile)
    ensures SessionFirst(World(Fresh, [], file))
  {
  }

  /** Every public operation of the client. */
  datatype Op =
    | ConfigureOp(arg: ConfigArg)
    | SaveOp
    | LoadOp(now: int)
    | NewTokenOp
    | SessionOp
    | FetchOp(e: Endpoint)

  function Apply(w: World, net: Network, op: Op): World {
    match op
    case ConfigureOp(arg) => SetConfig(w, arg).world
    case SaveOp => Save(w).world
    case LoadOp(now) => Load(w, net, now).world
    case NewTokenOp => GetNewToken(w, net).world
    case SessionOp => CreateEnvoySession(w, net).world
    case FetchOp(e) => Fetch(w, net, e).world
  }

  /** Extending the log keeps the invariant when the new requests and the
      session cached afterwards are backed by check requests. */
  lemma ExtensionKeepsSessionFirst(w: World, w': World)
    requires SessionFirst(w)
    requires |w.log| <= |w'.log| && w'.log[..|w.log|] == w.log
    requires w'.client.session.Some? ==> OpenedBefore(w'.log, w'.client.session.value, |w'.log|)
    requires forall i :: |w.log| <= i < |w'.log| && w'.log[i].EnvoyGet? ==> OpenedBefore(w'.log, w'.log[i].via, i)
    ensures SessionFirst(w')
  {
    forall i | 0 <= i < |w'.log| && w'.log[i].EnvoyGet?
      ensures OpenedBefore(w'.log, w'.log[i].via, i)
    {
      if i < |w.log| {
        assert w'.log[i] == w.log[i];
        assert w'.log[w.log[i].via.createdAt] == w.log[w.log[i].via.createdAt];
      }
    }
  }

  /** No operation breaks the invariant: a gateway data request is only
      ever sent through a session opened before it. */
  lemma {:induction false} SessionFirstPreserved(w: World, net: Network, op: Op)
    requires SessionFirst(w)
    ensures SessionFirst(Apply(w, net, op))
  {
    var w' := Apply(w, net, op);
    match op
    case FetchOp(e) =>
      var r := Fetch(w, net, e);
      if w.client.session.Some? {
        var s := w.client.session.value;
        assert w'.log[s.createdAt] == w.log[s.createdAt];
      } else if |w'.log| > |w.log| {
        assert w'.log[|w.log|].CheckJwt?;
      }
      ExtensionKeepsSessionFirst(w, w');
    case SessionOp =>
      if w.client.session.Some? {
      } else if |w'.log| > |w.log| {
        assert w'.log[|w.log|].CheckJwt?;
      }
      ExtensionKeepsSessionFirst(w, w');
    case LoadOp(now) =>
      if w.client.session.Some? {
        var s := w.client.session.value;
        assert w'.log[s.createdAt] == w.log[s.createdAt];
      }
      ExtensionKeepsSessionFirst(w, w');
    case NewTokenOp =>
      if w.client.session.Some? {
        var s := w.client.session.value;
        assert w'.log[s.createdAt] == w.log[s.createdAt];
      }
      ExtensionKeepsSessionFirst(w, w');
    case ConfigureOp(arg) =>
    case SaveOp =>
  }
}

=== FILE: poll.dfy ===
/** The monitoring script: one poll of the gateway's ensemble inventory, the
    lines it prints, the "grid down" decision, and the script as a whole
    (construct a client, `load` it once, then poll on a schedule until a poll
    raises). The ten-second period and the one-second sleep carry no
    information for the model: a run is a number of polls. */
module Poll {
  import opened PyValues
  import opened PyInt
  import opened Token
  import opened Client
  import opened Inventory
  import Lifecycle

  /** A line `poll_enphase` prints. The battery level's float formatting is
      not modelled: the line carries the exact mean. `BreakersNotice` is the
      line "Grid is down turning off breakers.", the only reaction to an
      outage. */
  datatype Line =
    | GridLine(status: string)
    | LevelLine(level: real, levels: string)
    | Blank
    | BreakersNotice

  /** The lines printed for one summary. */
  function Report(s: Summary): (lines: seq<Line>)
    ensures |lines| == (if s.gridStatus == Down then 4 else 3)
    ensures lines[0] == GridLine(Label(s.gridStatus))
    ensures lines[1] == LevelLine(s.batteryLevel, RenderLevels(s.batteryLevels))
    ensures lines[2] == Blank
    ensures s.gridStatus == Down ==> lines[3] == BreakersNotice
  {
    [GridLine(Label(s.gridStatus)), LevelLine(s.batteryLevel, RenderLevels(s.batteryLevels)), Blank]
      + (if s.gridStatus == Down then [BreakersNotice] else [])
  }

  /** A printed report gives back the grid status and every battery level. */
  lemma ReportIsReadable(s: Summary)
    ensures Report(s)[0].status == "UP" <==> s.gridStatus == Up
    ensures ParseLevels(Report(s)[1].levels) == Some(s.batteryLevels)
  {
    RenderRoundTrip(s.batteryLevels);
  }

  /** The world after a poll, the summary or the exception, and the lines
      printed (none when it raises). */
  datatype PollOutcome = PollOutcome(world: World, result: Result<Summary>, output: seq<Line>)

  /** `poll_enphase(enphase)`: fetch the ensemble inventory (session first),
      reduce it, print the report and, when the grid is down, the notice.
      Nothing is caught: an exception from the fetch or the reduction
      propagates before anything is printed. */
  function PollEnphase(w: World, net: Network): (r: PollOutcome)
    ensures r.world.file == w.file
    // the token is neither checked nor renewed
    ensures r.world.client.config == w.client.config && r.world.client.token == w.client.token
    ensures ExtendsWith(w.log, r.world.log, IsGatewayRequest)
    ensures |r.world.log| <= |w.log| + (if w.client.session.Some? then 1 else 2)
    ensures w.client.session.Some? ==> r.world.client.session == w.client.session
    ensures w.client.session.None? && r.world.client.session.Some? ==>
              w.client.token.Some? && r.world.client.session.value.bearer == w.client.token.value.token
    ensures forall i :: |w.log| <= i < |r.world.log| && r.world.log[i].EnvoyGet? ==>
              r.world.client.session == Some(r.world.log[i].via)
    ensures r.result.Err? <==> r.output == []
    ensures r.result.Ok? ==> r.output == Report(r.result.value) && r.world.client.session.Some?
    // the summary is the reduction of the reply to the data request just sent
    ensures r.result.Ok? ==>
              && w.client.config.Some?
              && |r.world.log| > |w.log|
              && r.world.log[|r.world.log| - 1] ==
                   EnvoyGet(w.client.config.value.envoy, IvpEnsembleInventory, r.world.client.session.value)
              && net(|r.world.log| - 1, r.world.log[|r.world.log| - 1]).Received?
              && net(|r.world.log| - 1, r.world.log[|r.world.log| - 1]).body.Some?
              && ProcessEnsembleInventory(net(|r.world.log| - 1, r.world.log[|r.world.log| - 1]).body.value) == r.result
  {
    var f := Fetch(w, net, IvpEnsembleInventory);
    match f.result
    case Err(e) => PollOutcome(f.world, Err(e), [])
    case Ok(data) =>
      match ProcessEnsembleInventory(data)
      case Err(e) => PollOutcome(f.world, Err(e), [])
      case Ok(s) => PollOutcome(f.world, Ok(s), Report(s))
  }

  /** The breakers notice is printed exactly by a successful poll that saw
      the grid down. */
  lemma NoticeIffPollSawOutage(w: World, net: Network)
    ensures var r := PollEnphase(w, net);
            && (BreakersNotice in r.output <==> r.result.Ok? && r.result.value.gridStatus == Down)
            && multiset(r.output)[BreakersNotice] == (if r.result.Ok? && r.result.value.gridStatus == Down then 1 else 0)
  {
    var r := PollEnphase(w, net);
    if r.result.Ok? {
      NoticeOncePerReport(r.result.value);
    }
  }

  /** A report holds the notice once when the grid is down, else not at all. */
  lemma NoticeOncePerReport(s: Summary)
    ensures multiset(Report(s))[BreakersNotice] == (if s.gridStatus == Down then 1 else 0)
  {
    var head := [GridLine(Label(s.gridStatus)), LevelLine(s.batteryLevel, RenderLevels(s.batteryLevels)), Blank];
    assert Report(s) == head + (if s.gridStatus == Down then [BreakersNotice] else []);
    assert multiset(head)[BreakersNotice] == 0;
  }

  /** When the inventory holds both groups and every battery level converts,
      the poll succeeds exactly when there is a battery and the mean level is
      within float range (always so for percentages), and then reports the
      grid down, printing the notice, exactly when the first ENPOWER
      device's `mains_oper_state` is not "closed". */
  lemma PollFiresIffMainsNotClosed(w: World, net: Network, data: Json, items: seq<Json>, p: nat,
                                   first: seq<(string, Json)>, q: nat, devices: seq<Json>, levels: seq<int>)
    requires Fetch(w, net, IvpEnsembleInventory).result == Ok(data)
    requires Iterate(data) == Ok(items)
    requires IsFirst(items, Enpower, p)
    requires FirstDevice(Get(items[p].fields, "devices")) == Ok(first)
    requires IsFirst(items, Encharge, q)
    requires Iterate(Get(items[q].fields, "devices")) == Ok(devices)
    requires |levels| == |devices| && forall k :: 0 <= k < |devices| ==> Level(devices[k]) == Ok(levels[k])
    ensures var r := PollEnphase(w, net);
            && (r.result.Ok? <==> |levels| > 0 && FitsFloat(Mean(levels)))
            && (|levels| > 0 && (forall k :: 0 <= k < |levels| ==> 0 <= levels[k] <= 100) ==> r.result.Ok?)
            && (|levels| > 0 && !FitsFloat(Mean(levels)) ==> r.result == Err(OverflowError) && r.output == [])
            && (r.result.Ok? ==>
                  && (BreakersNotice in r.output <==> Get(first, "mains_oper_state") != JString("closed"))
                  && r.result.value.batteryLevels == levels)
  {
    ReduceToLevels(data, items, p, first, q, devices, levels);
    PollResultOfFetched(w, net, data);
    NoticeIffPollSawOutage(w, net);
    if |levels| > 0 && forall k :: 0 <= k < |levels| ==> 0 <= levels[k] <= 100 {
      MeanBounds(levels, 0, 100);
    }
  }

  /** A poll whose fetch returned `data` reports the reduction of `data`. */
  lemma PollResultOfFetched(w: World, net: Network, data: Json)
    requires Fetch(w, net, IvpEnsembleInventory).result == Ok(data)
    ensures PollEnphase(w, net).result == ProcessEnsembleInventory(data)
  {
  }

  /** A two-group inventory: one ENPOWER device whose `mains_oper_state` is
      `mains`, and two batteries at "80" and "60" percent. */
  function SampleInventory(mains: string): Json {
    JArray([
      JObject([("type", JString(Enpower)),
               ("devices", JArray([JObject([("mains_oper_state", JString(mains))])]))]),
      JObject([("type", JString(Encharge)),
               ("devices", JArray([JObject([("percentFull", JString("80"))]),
                                   JObject([("percentFull", JString("60"))])]))])
    ])
  }

  lemma SampleLevelsParse()
    ensures ParseIntString("80") == Ok(80) && ParseIntString("60") == Ok(60)
  {
    assert AllDigits("80") && AllDigits("60");
    assert "80"[..1] == "8" && "8"[..0] == "";
    assert DigitsValue("80") == 80;
    assert "60"[..1] == "6" && "6"[..0] == "";
    assert DigitsValue("60") == 60;
    ParseDigitString("80");
    ParseDigitString("60");
  }

  lemma SampleMean()
    ensures Mean([80, 60]) == 70.0
  {
    assert [80, 60][..1] == [80] && [80][..0] == [];
    assert Sum([80, 60]) == 140;
  }

  /** The devices of the sample's ENCHARGE group. */
  const SampleBatteries: seq<Json> :=
    [JObject([("percentFull", JString("80"))]), JObject([("percentFull", JString("60"))])]

  /** Where the sample's groups and devices are. */
  lemma SampleShape(mains: string)
    ensures var items := SampleInventory(mains).items;
            && Iterate(SampleInventory(mains)) == Ok(items)
            && IsFirst(items, Enpower, 0)
            && FirstDevice(Get(items[0].fields, "devices")) == Ok([("mains_oper_state", JString(mains))])
            && IsFirst(items, Encharge, 1)
            && Iterate(Get(items[1].fields, "devices")) == Ok(SampleBatteries)
            && Level(SampleBatteries[0]) == Ok(80)
            && Level(SampleBatteries[1]) == Ok(60)
  {
    SampleGroups(mains);
    SampleDevices(mains);
    SampleBatteryLevels();
  }

  lemma SampleGroups(mains: string)
    ensures var items := SampleInventory(mains).items;
            && Iterate(SampleInventory(mains)) == Ok(items)
            && IsFirst(items, Enpower, 0)
            && IsFirst(items, Encharge, 1)
  {
    var items := SampleInventory(mains).items;
    assert Get(items[0].fields, "type") == JString(Enpower);
    assert Get(items[1].fields, "type") == JString(Encharge);
    assert Enpower[2] != Encharge[2];
    assert !IsGroup(items[0], Encharge);
  }

  lemma SampleDevices(mains: string)
    ensures var items := SampleInventory(mains).items;
            && FirstDevice(Get(items[0].fields, "devices")) == Ok([("mains_oper_state", JString(mains))])
            && Iterate(Get(items[1].fields, "devices")) == Ok(SampleBatteries)
  {
    var items := SampleInventory(mains).items;
    assert Get(items[0].fields, "devices") == JArray([JObject([("mains_oper_state", JString(mains))])]);
    assert Get(items[1].fields, "devices") == JArray(SampleBatteries);
  }

  lemma SampleBatteryLevels()
    ensures Level(SampleBatteries[0]) == Ok(80) && Level(SampleBatteries[1]) == Ok(60)
  {
    SampleLevelsParse();
    LevelOfPercent("80", 80);
    LevelOfPercent("60", 60);
  }

  lemma LevelOfPercent(s: string, n: int)
    requires ParseIntString(s) == Ok(n)
    ensures Level(JObject([("percentFull", JString(s))])) == Ok(n)
  {
    var fields := [("percentFull", JString(s))];
    assert Get(fields, "percentFull") == JString(s);
  }

  /** Any inventory shaped like the sample reduces like it. */
  lemma TwoBatteryReduction(data: Json, items: seq<Json>, first: seq<(string, Json)>, mains: string, devices: seq<Json>)
    requires Iterate(data) == Ok(items)
    requires IsFirst(items, Enpower, 0) && IsFirst(items, Encharge, 1)
    requires FirstDevice(Get(items[0].fields, "devices")) == Ok(first)
    requires Get(first, "mains_oper_state") == JString(mains)
    requires Iterate(Get(items[1].fields, "devices")) == Ok(devices)
    requires |devices| == 2 && Level(devices[0]) == Ok(80) && Level(devices[1]) == Ok(60)
    ensures ProcessEnsembleInventory(data) == Ok(Summary(if mains == "closed" then Up else Down, [80, 60], 70.0))
  {
    var levels := [80, 60];
    assert forall k :: 0 <= k < |devices| ==> Level(devices[k]) == Ok(levels[k]) by {
      forall k | 0 <= k < |devices| ensures Level(devices[k]) == Ok(levels[k]) {
        assert k == 0 || k == 1;
      }
    }
    ReduceFromFirstGroups(data, items, 0, first, 1, devices);
    SummarizeOfLevels(GridOf(first), devices, levels);
    SampleMean();
  }

  /** The sample reduces to levels [80, 60] with mean 70, and the grid is up
      exactly when the mains are "closed". */
  lemma SampleInventoryReduces(mains: string)
    ensures ProcessEnsembleInventory(SampleInventory(mains)) ==
              Ok(Summary(if mains == "closed" then Up else Down, [80, 60], 70.0))
  {
    var first := [("mains_oper_state", JString(mains))];
    SampleShape(mains);
    assert Get(first, "mains_oper_state") == JString(mains);
    TwoBatteryReduction(SampleInventory(mains), SampleInventory(mains).items, first, mains, SampleBatteries);
  }

  /** A poll that receives the sample prints the breakers notice once when
      the mains are open, and not at all when they are closed. */
  lemma SamplePollFiresOnce(w: World, net: Network, mains: string)
    requires Fetch(w, net, IvpEnsembleInventory).result == Ok(SampleInventory(mains))
    ensures var r := PollEnphase(w, net);
            && r.result == Ok(Summary(if mains == "closed" then Up else Down, [80, 60], 70.0))
            && multiset(r.output)[BreakersNotice] == (if mains == "closed" then 0 else 1)
  {
    SampleInventoryReduces(mains);
  }

  /** With a cached session, a poll sends exactly its one data request, even
      when the token has expired: no login, no new check request. */
  lemma ExpiredTokenPollSendsOneRequest(w: World, net: Network, now: int)
    requires w.client.session.Some? && w.client.config.Some? && w.client.token.Some?
    requires IsValid(w.client.token.value, now) == Ok(false)
    ensures var r := PollEnphase(w, net);
            && r.world.log == w.log + [EnvoyGet(w.client.config.value.envoy, IvpEnsembleInventory, w.client.session.value)]
            && r.world.client == w.client
  {
    Lifecycle.ExpiredTokenStillUsesCachedSession(w, net, IvpEnsembleInventory, now);
  }

  /** A poll keeps the invariant that data requests only go through sessions
      opened earlier. */
  lemma PollKeepsSessionFirst(w: World, net: Network)
    requires Lifecycle.SessionFirst(w)
    ensures Lifecycle.SessionFirst(PollEnphase(w, net).world)
  {
    PollWorldIsFetchWorld(w, net);
    Lifecycle.SessionFirstPreserved(w, net, Lifecycle.FetchOp(IvpEnsembleInventory));
  }

  /** Reducing and printing change nothing in the world: a poll's effect is
      its fetch's. */
  lemma PollWorldIsFetchWorld(w: World, net: Network)
    ensures PollEnphase(w, net).world == Lifecycle.Apply(w, net, Lifecycle.FetchOp(IvpEnsembleInventory))
  {
  }

  /** The lines of several reports, in order. */
  function Reports(ss: seq<Summary>): seq<Line> {
    if |ss| == 0 then [] else Report(ss[0]) + Reports(ss[1..])
  }

  /** The notice appears in the printed output of a run exactly when some
      poll of it saw the grid down. */
  lemma {:induction false} NoticeIffSomeOutage(ss: seq<Summary>)
    ensures BreakersNotice in Reports(ss) <==> exists i :: 0 <= i < |ss| && ss[i].gridStatus == Down
  {
    if |ss| > 0 {
      NoticeIffSomeOutage(ss[1..]);
      if exists i :: 0 <= i < |ss[1..]| && ss[1..][i].gridStatus == Down {
        var i :| 0 <= i < |ss[1..]| && ss[1..][i].gridStatus == Down;
        assert ss[i + 1].gridStatus == Down;
      }
      if exists i :: 0 <= i < |ss| && ss[i].gridStatus == Down {
        var i :| 0 <= i < |ss| && ss[i].gridStatus == Down;
        if i > 0 {
          assert ss[1..][i - 1].gridStatus == Down;
        }
      }
    }
  }

  /** The number of summaries that saw the grid down. */
  function Outages(ss: seq<Summary>): nat {
    if |ss| == 0 then 0 else (if ss[0].gridStatus == Down then 1 else 0) + Outages(ss[1..])
  }

  /** The output of several polls holds the notice once per poll that saw
      the grid down. */
  lemma {:induction false} NoticeOncePerOutage(ss: seq<Summary>)
    ensures multiset(Reports(ss))[BreakersNotice] == Outages(ss)
  {
    if |ss| > 0 {
      NoticeOncePerOutage(ss[1..]);
      NoticeOncePerReport(ss[0]);
      assert multiset(Reports(ss)) == multiset(Report(ss[0])) + multiset(Reports(ss[1..]));
    }
  }

  /** A scheduled run: the world at its end, the summaries of the polls that
      completed, the exception that ended it (if any), and what it printed. */
  datatype Run = Run(world: World, summaries: seq<Summary>, failure: Option<Error>, output: seq<Line>)

  /** Up to `n` runs of `job`, the way `schedule` runs a job: it does not
      catch exceptions, so the first run of the job that raises ends the
      loop. */
  function Schedule(job: World -> PollOutcome, w: World, n: nat): (r: Run)
    decreases n
    ensures |r.summaries| <= n
    ensures r.failure.None? ==> |r.summaries| == n
    // a failure cuts the run short
    ensures r.failure.Some? ==> |r.summaries| < n
    // a run that stopped early did so because a poll raised
    ensures |r.summaries| < n ==> r.failure.Some?
  {
    if n == 0 then Run(w, [], None, [])
    else
      var p := job(w);
      match p.result
      case Err(e) => Run(p.world, [], Some(e), p.output)
      case Ok(s) =>
        var rest := Schedule(job, p.world, n - 1);
        Run(rest.world, [s] + rest.summaries, rest.failure, p.output + rest.output)
  }

  /** A job none of whose `n` successive polls raises runs all of them,
      without failure. */
  lemma {:induction false} ScheduleWithoutRaiseCompletes(job: World -> PollOutcome, w: World, n: nat)
    requires forall j :: 0 <= j < n ==> job(WorldAfter(job, w, j)).result.Ok?
    decreases n
    ensures Schedule(job, w, n).failure.None? && |Schedule(job, w, n).summaries| == n
  {
    if n > 0 {
      assert WorldAfter(job, w, 0) == w;
      forall j | 0 <= j < n - 1
        ensures job(WorldAfter(job, job(w).world, j)).result.Ok?
      {
        assert WorldAfter(job, w, j + 1) == WorldAfter(job, job(w).world, j);
      }
      ScheduleWithoutRaiseCompletes(job, job(w).world, n - 1);
    }
  }

  /** The world after `k` polls of `job`, each from the world the previous
      one left. */
  function WorldAfter(job: World -> PollOutcome, w: World, k: nat): World
    decreases k
  {
    if k == 0 then w else WorldAfter(job, job(w).world, k - 1)
  }

  /** The summaries of a run are the results of its successive polls, and
      its failure is the exception of the poll that followed them. */
  lemma {:induction false} ScheduleFailureIsFirstRaise(job: World -> PollOutcome, w: World, n: nat)
    decreases n
    ensures var r := Schedule(job, w, n);
            && (forall j :: 0 <= j < |r.summaries| ==> job(WorldAfter(job, w, j)).result == Ok(r.summaries[j]))
            && (r.failure.Some? ==> job(WorldAfter(job, w, |r.summaries|)).result == Err(r.failure.value))
  {
    if n > 0 {
      var p := job(w);
      if p.result.Ok? {
        ScheduleFailureIsFirstRaise(job, p.world, n - 1);
        var r := Schedule(job, w, n);
        var rest := Schedule(job, p.world, n - 1);
        forall j | 0 <= j < |r.summaries|
          ensures job(WorldAfter(job, w, j)).result == Ok(r.summaries[j])
        {
          if j > 0 {
            assert WorldAfter(job, w, j) == WorldAfter(job, p.world, j - 1);
            assert r.summaries[j] == rest.summaries[j - 1];
          }
        }
        if r.failure.Some? {
          assert WorldAfter(job, w, |r.summaries|) == WorldAfter(job, p.world, |rest.summaries|);
        }
      }
    }
  }

  /** Every data request after `prefix` in `log` goes through session `s`. */
  predicate AllThrough(prefix: seq<Request>, log: seq<Request>, s: Session) {
    forall i :: |prefix| <= i < |log| && log[i].EnvoyGet? ==> log[i].via == s
  }

  /** No data request follows `prefix` in `log`. */
  predicate NoDataRequest(prefix: seq<Request>, log: seq<Request>) {
    forall i :: |prefix| <= i < |log| ==> !log[i].EnvoyGet?
  }

  /** What the scheduled loop relies on about one poll from `w`. */
  predicate WellBehaved(w: World, p: PollOutcome) {
    && p.world.file == w.file
    && p.world.client.config == w.client.config
    && p.world.client.token == w.client.token
    && ExtendsWith(w.log, p.world.log, IsGatewayRequest)
    && |p.world.log| <= |w.log| + (if w.client.session.Some? then 1 else 2)
    && (w.client.session.Some? ==> p.world.client.session == w.client.session)
    && (w.client.session.None? && p.world.client.session.Some? ==>
          w.client.token.Some? && p.world.client.session.value.bearer == w.client.token.value.token)
    && (p.world.client.session.Some? ==> AllThrough(w.log, p.world.log, p.world.client.session.value))
    && (p.world.client.session.None? ==> NoDataRequest(w.log, p.world.log))
    && (p.result.Err? ==> p.output == [])
    && (p.result.Ok? ==> p.output == Report(p.result.value) && p.world.client.session.Some?)
    && (p.result.Ok? ==> |p.world.log| > |w.log|)
  }

  ghost predicate WellBehavedJob(job: World -> PollOutcome) {
    forall x :: WellBehaved(x, job(x))
  }

  lemma PollIsWellBehaved(w: World, net: Network)
    ensures WellBehaved(w, PollEnphase(w, net))
  {
  }

  /** `poll_enphase` on the client, as the script schedules it. */
  function PollJob(net: Network): World -> PollOutcome {
    (x: World) => PollEnphase(x, net)
  }

  lemma PollJobIsWellBehaved(net: Network)
    ensures WellBehavedJob(PollJob(net))
  {
    forall x ensures WellBehaved(x, PollJob(net)(x)) {
      PollIsWellBehaved(x, net);
    }
  }

  lemma ExtendsWithTransitive(a: seq<Request>, b: seq<Request>, c: seq<Request>, ok: Request -> bool)
    requires ExtendsWith(a, b, ok) && ExtendsWith(b, c, ok)
    ensures ExtendsWith(a, c, ok)
  {
    assert c[..|a|] == c[..|b|][..|a|];
    forall i | |a| <= i < |c| ensures ok(c[i]) {
      if i < |b| {
        assert c[i] == c[..|b|][i];
      }
    }
  }

  lemma ThroughSessionTransitive(a: seq<Request>, b: seq<Request>, c: seq<Request>, s: Session)
    requires |a| <= |b| <= |c| && c[..|b|] == b
    requires AllThrough(a, b, s) && AllThrough(b, c, s)
    ensures AllThrough(a, c, s)
  {
    forall i | |a| <= i < |c| && c[i].EnvoyGet? ensures c[i].via == s {
      if i < |b| {
        assert c[i] == b[i];
      }
    }
  }

  /** A run of a well-behaved job prints the reports of the polls that
      completed, in order, and nothing else. */
  lemma {:induction false} ScheduleOutput(job: World -> PollOutcome, w: World, n: nat)
    requires WellBehavedJob(job)
    decreases n
    ensures Schedule(job, w, n).output == Reports(Schedule(job, w, n).summaries)
  {
    if n > 0 {
      var p := job(w);
      assert WellBehaved(w, p);
      if p.result.Ok? {
        ScheduleOutput(job, p.world, n - 1);
        var rest := Schedule(job, p.world, n - 1);
        assert Reports([p.result.value] + rest.summaries) == Report(p.result.value) + Reports(rest.summaries);
      }
    }
  }

  /** A run of a well-behaved job keeps the file, the configuration and the
      token, and a session cached beforehand. */
  lemma {:induction false} ScheduleKeepsClient(job: World -> PollOutcome, w: World, n: nat)
    requires WellBehavedJob(job)
    decreases n
    ensures var r := Schedule(job, w, n);
            && r.world.file == w.file
            && r.world.client.config == w.client.config
            && r.world.client.token == w.client.token
            && (w.client.session.Some? ==> r.world.client.session == w.client.session)
  {
    if n > 0 {
      var p := job(w);
      assert WellBehaved(w, p);
      if p.result.Ok? {
        ScheduleKeepsClient(job, p.world, n - 1);
      }
    }
  }

  /** A run sends no cloud request: it only appends gateway requests. */
  lemma {:induction false} ScheduleSendsNoCloudRequest(job: World -> PollOutcome, w: World, n: nat)
    requires WellBehavedJob(job)
    decreases n
    ensures ExtendsWith(w.log, Schedule(job, w, n).world.log, IsGatewayRequest)
  {
    if n > 0 {
      var p := job(w);
      assert WellBehaved(w, p);
      if p.result.Ok? {
        ScheduleSendsNoCloudRequest(job, p.world, n - 1);
        ExtendsWithTransitive(w.log, p.world.log, Schedule(job, p.world, n - 1).world.log, IsGatewayRequest);
      }
    }
  }

  /** Every data request of a run goes through the one session cached at its
      end, and a run that ends without a session sent none. */
  lemma {:induction false} ScheduleUsesOneSession(job: World -> PollOutcome, w: World, n: nat)
    requires WellBehavedJob(job)
    decreases n
    ensures var r := Schedule(job, w, n);
            && (r.world.client.session.Some? ==> AllThrough(w.log, r.world.log, r.world.client.session.value))
            && (r.world.client.session.None? ==> NoDataRequest(w.log, r.world.log))
  {
    if n > 0 {
      var p := job(w);
      assert WellBehaved(w, p);
      if p.result.Ok? {
        ScheduleUsesOneSession(job, p.world, n - 1);
        ScheduleSendsNoCloudRequest(job, p.world, n - 1);
        ScheduleKeepsClient(job, p.world, n - 1);
        OneSessionStep(w, p, Schedule(job, p.world, n - 1).world);
      }
    }
  }

  /** One completed poll followed by a run that kept its session through
      that session: every data request since `w` went through it. */
  lemma OneSessionStep(w: World, p: PollOutcome, r: World)
    requires WellBehaved(w, p) && p.result.Ok?
    requires ExtendsWith(p.world.log, r.log, IsGatewayRequest)
    requires r.client.session == p.world.client.session
    requires r.client.session.Some? ==> AllThrough(p.world.log, r.log, r.client.session.value)
    ensures r.client.session.Some? && AllThrough(w.log, r.log, r.client.session.value)
  {
    ThroughSessionTransitive(w.log, p.world.log, r.log, p.world.client.session.value);
  }

  /** A session a run opens carries the client's token. */
  lemma {:induction false} ScheduleSessionCarriesToken(job: World -> PollOutcome, w: World, n: nat)
    requires WellBehavedJob(job)
    decreases n
    ensures var r := Schedule(job, w, n);
            w.client.session.None? && r.world.client.session.Some? ==>
              w.client.token.Some? && r.world.client.session.value.bearer == w.client.token.value.token
  {
    if n > 0 {
      var p := job(w);
      assert WellBehaved(w, p);
      if p.result.Ok? {
        ScheduleKeepsClient(job, p.world, n - 1);
      }
    }
  }

  /** A run sends one request per attempted poll, plus at most one check
      request to open the session. */
  lemma {:induction false} ScheduleRequestCount(job: World -> PollOutcome, w: World, n: nat)
    requires WellBehavedJob(job)
    decreases n
    ensures var r := Schedule(job, w, n);
            && |w.log| + |r.summaries| <= |r.world.log|
            && |r.world.log| <= |w.log| + |r.summaries| + (if r.failure.Some? then 1 else 0)
                                        + (if w.client.session.Some? then 0 else 1)
  {
    if n > 0 {
      var p := job(w);
      assert WellBehaved(w, p);
      if p.result.Ok? {
        ScheduleRequestCount(job, p.world, n - 1);
      }
    }
  }

  /** The script: a fresh client, one `load` at time `now` (whose exception
      ends the script before any poll), then up to `n` scheduled polls. */
  function RunScript(file: ConfigFile, net: Network, now: int, n: nat): (r: Run)
    ensures Load(World(Fresh, [], file), net, now).result.Err? ==>
              r.summaries == [] && r.failure.Some? && r.output == []
    // after a successful load, the polls are scheduled from the world it left
    ensures var l := Load(World(Fresh, [], file), net, now);
            l.result.Ok? ==> r == Schedule(PollJob(net), l.world, n)
    ensures |r.summaries| <= n
    ensures r.failure.None? ==> |r.summaries| == n
  {
    var loaded := Load(World(Fresh, [], file), net, now);
    if loaded.result.Err? then Run(loaded.world, [], Some(loaded.result.error), [])
    else Schedule(PollJob(net), loaded.world, n)
  }

  /** The script prints one report per completed poll, and the breakers
      notice exactly when some poll saw the grid down. */
  lemma ScriptOutput(file: ConfigFile, net: Network, now: int, n: nat)
    ensures var r := RunScript(file, net, now, n);
            && r.output == Reports(r.summaries)
            && (BreakersNotice in r.output <==> exists i :: 0 <= i < |r.summaries| && r.summaries[i].gridStatus == Down)
  {
    var loaded := Load(World(Fresh, [], file), net, now);
    if loaded.result.Ok? {
      PollJobIsWellBehaved(net);
      ScheduleOutput(PollJob(net), loaded.world, n);
    }
    NoticeIffSomeOutage(RunScript(file, net, now, n).summaries);
  }

  /** The script sends cloud requests only during its one `load`, at the
      very start; the polls never log in again, whatever the token's
      validity. */
  lemma ScriptLogsInOnlyAtStart(file: ConfigFile, net: Network, now: int, n: nat)
    ensures var r := RunScript(file, net, now, n);
            forall i :: 0 <= i < |r.world.log| && IsCloudRequest(r.world.log[i]) ==> i < 2
  {
    var loaded := Load(World(Fresh, [], file), net, now);
    if loaded.result.Ok? {
      PollJobIsWellBehaved(net);
      ScheduleSendsNoCloudRequest(PollJob(net), loaded.world, n);
      var r := Schedule(PollJob(net), loaded.world, n);
      assert |loaded.world.log| <= 2;
    }
  }

  /** A log that starts with cloud requests only and continues, through
      one session or with no data request at all, sends every data request
      through that session. */
  lemma OneSessionAfterCloudPrefix(a: seq<Request>, c: seq<Request>, s: Option<Session>)
    requires |a| <= |c| && c[..|a|] == a
    requires forall i :: 0 <= i < |a| ==> IsCloudRequest(a[i])
    requires s.Some? ==> AllThrough(a, c, s.value)
    requires s.None? ==> NoDataRequest(a, c)
    ensures forall i :: 0 <= i < |c| && c[i].EnvoyGet? ==> s == Some(c[i].via)
  {
    forall i | 0 <= i < |c| && c[i].EnvoyGet? ensures s == Some(c[i].via) {
      assert i >= |a|;
    }
  }

  /** Every data request of the script goes through one session, the one
      cached at the end. */
  lemma ScriptUsesOneSession(file: ConfigFile, net: Network, now: int, n: nat)
    ensures var r := RunScript(file, net, now, n);
            forall i :: 0 <= i < |r.world.log| && r.world.log[i].EnvoyGet? ==>
              r.world.client.session == Some(r.world.log[i].via)
  {
    var loaded := Load(World(Fresh, [], file), net, now);
    var r := RunScript(file, net, now, n);
    if loaded.result.Ok? {
      var job := PollJob(net);
      PollJobIsWellBehaved(net);
      ScheduleSendsNoCloudRequest(job, loaded.world, n);
      ScheduleUsesOneSession(job, loaded.world, n);
      OneSessionAfterCloudPrefix(loaded.world.log, r.world.log, r.world.client.session);
    } else {
      assert r.world.log == loaded.world.log;
      forall i | 0 <= i < |r.world.log| ensures !r.world.log[i].EnvoyGet? {
        assert IsCloudRequest(loaded.world.log[i]);
      }
    }
  }

  /** The script's session, once open, carries the token `load` left
      behind: polls never change the token. */
  lemma ScriptSessionCarriesLoadedToken(file: ConfigFile, net: Network, now: int, n: nat)
    ensures var r := RunScript(file, net, now, n);
            r.world.client.session.Some? ==>
              && r.world.client.token.Some?
              && r.world.client.token == Load(World(Fresh, [], file), net, now).world.client.token
              && r.world.client.session.value.bearer == r.world.client.token.value.token
  {
    var loaded := Load(World(Fresh, [], file), net, now);
    if loaded.result.Ok? {
      var job := PollJob(net);
      PollJobIsWellBehaved(net);
      ScheduleKeepsClient(job, loaded.world, n);
      ScheduleSessionCarriesToken(job, loaded.world, n);
    }
  }
}

=== FILE: py_int.dfy ===
/** Python's `int(x)` on decoded JSON values, and `str(n)` for an int.
    `int` of a string accepts surrounding whitespace, one optional sign and
    decimal digits with single underscores between them ("1_000"). */
module PyInt {
  import opened PyValues

  predicate IsDigit(c: char) {
    '0' <= c <= '9'
  }

  /** The ASCII characters Python counts as whitespace (`str.isspace`),
      which `int` strips: space, tab, the line and form feeds, carriage
      return and the four separators U+001C to U+001F. */
  predicate IsSpace(c: char) {
    c == ' ' || c == '\t' || c == '\n' || c == '\r' || c == '\U{B}' || c == '\U{C}'
    || '\U{1C}' <= c <= '\U{1F}'
  }

  predicate AllDigits(d: string) {
    forall i :: 0 <= i < |d| ==> IsDigit(d[i])
  }

  function StripLeft(s: string): (r: string)
    ensures |r| <= |s| && r == s[|s| - |r|..]
    ensures |r| > 0 ==> !IsSpace(r[0])
    ensures forall i :: 0 <= i < |s| - |r| ==> IsSpace(s[i])
  {
    if |s| > 0 && IsSpace(s[0]) then StripLeft(s[1..]) else s
  }

  function StripRight(s: string): (r: string)
    ensures |r| <= |s| && r == s[..|r|]
    ensures |r| > 0 ==> !IsSpace(r[|r| - 1])
    ensures forall i :: |r| <= i < |s| ==> IsSpace(s[i])
  {
    if |s| > 0 && IsSpace(s[|s| - 1]) then StripRight(s[..|s| - 1]) else s
  }

  /** `s.strip()` */
  function Strip(s: string): string {
    StripRight(StripLeft(s))
  }

  /** Digits with single underscores between them: "1_000", not "_1", "1_" or "1__0". */
  predicate WellFormedDigits(b: string) {
    && |b| > 0
    && IsDigit(b[0])
    && IsDigit(b[|b| - 1])
    && (forall i :: 0 <= i < |b| ==> IsDigit(b[i]) || b[i] == '_')
    && (forall i :: 0 <= i < |b| - 1 ==> !DoubleUnderscoreAt(b, i))
  }

  predicate DoubleUnderscoreAt(b: string, i: nat)
    requires i + 1 < |b|
  {
    b[i] == '_' && b[i + 1] == '_'
  }

  function DropUnderscores(b: string): (r: string)
    ensures (forall i :: 0 <= i < |b| ==> IsDigit(b[i]) || b[i] == '_') ==> AllDigits(r)
    ensures AllDigits(b) ==> r == b
  {
    if |b| == 0 then ""
    else if b[0] == '_' then DropUnderscores(b[1..])
    else [b[0]] + DropUnderscores(b[1..])
  }

  /** The value of a string of decimal digits, most significant first. */
  function DigitsValue(d: string): (n: nat)
    requires AllDigits(d)
  {
    if |d| == 0 then 0
    else DigitsValue(d[..|d| - 1]) * 10 + (d[|d| - 1] as int - '0' as int)
  }

  /** `int(s)` for a str: ValueError unless, once stripped, it is an optional
      sign followed by well-formed digits. */
  function ParseIntString(s: string): (r: Result<int>)
    ensures r.Err? ==> r.error == ValueError
    ensures (forall i :: 0 <= i < |s| ==> IsSpace(s[i])) ==> r.Err?
  {
    ParseSigned(Strip(s))
  }

  /** `int` of an already stripped string. */
  function ParseSigned(t: string): (r: Result<int>)
    ensures r.Err? ==> r.error == ValueError
    ensures r.Ok? ==> |t| > 0 && (IsDigit(t[0]) || t[0] == '+' || t[0] == '-')
  {
    if |t| > 0 && (t[0] == '+' || t[0] == '-') then
      var body := t[1..];
      if WellFormedDigits(body) then
        var magnitude: int := DigitsValue(DropUnderscores(body));
        Ok(if t[0] == '-' then -magnitude else magnitude)
      else Err(ValueError)
    else if WellFormedDigits(t) then
      Ok(DigitsValue(DropUnderscores(t)))
    else Err(ValueError)
  }

  /** Python's `int(x)` truncation of a float toward zero. */
  function Truncate(r: real): (n: int)
    ensures r >= 0.0 ==> n as real <= r < n as real + 1.0
    ensures r < 0.0 ==> n as real - 1.0 < r <= n as real
  {
    if r >= 0.0 then r.Floor else -((-r).Floor)
  }

  /** `int(v)` for a decoded JSON value. */
  function PyIntOf(v: Json): (r: Result<int>)
    ensures r.Err? ==> r.error == TypeError || r.error == ValueError
    ensures r.Err? && r.error == ValueError ==> v.JString?
    ensures v.JInt? ==> r == Ok(v.i)
    ensures v.JNull? || v.JArray? || v.JObject? ==> r == Err(TypeError)
  {
    match v
    case JNull => Err(TypeError)
    case JBool(b) => Ok(if b then 1 else 0)
    case JInt(i) => Ok(i)
    case JFloat(r) => Ok(Truncate(r))
    case JString(s) => ParseIntString(s)
    case JArray(_) => Err(TypeError)
    case JObject(_) => Err(TypeError)
  }

  function DigitChar(d: nat): (c: char)
    requires d < 10
    ensures IsDigit(c) && c as int - '0' as int == d
  {
    ('0' as int + d) as char
  }

  /** The decimal digits of a natural number, without leading zeros. */
  function Digits(n: nat): (d: string)
    ensures |d| > 0 && AllDigits(d)
    ensures n > 0 ==> d[0] != '0'
  {
    if n < 10 then [DigitChar(n)] else Digits(n / 10) + [DigitChar(n % 10)]
  }

  /** `str(n)` for an int. */
  function Decimal(n: int): (s: string)
    ensures |s| > 0 && (forall i :: 0 <= i < |s| ==> IsDigit(s[i]) || s[i] == '-')
    ensures n >= 0 ==> AllDigits(s)
  {
    if n < 0 then "-" + Digits(-n) else Digits(n)
  }

  lemma {:induction false} DigitsValueOfDigits(n: nat)
    ensures DigitsValue(Digits(n)) == n
  {
    if n >= 10 {
      var d := Digits(n);
      assert d[..|d| - 1] == Digits(n / 10);
      DigitsValueOfDigits(n / 10);
    }
  }

  /** A string that neither starts nor ends with whitespace is its own strip. */
  lemma StripUntouched(s: string)
    requires |s| > 0 && !IsSpace(s[0]) && !IsSpace(s[|s| - 1])
    ensures Strip(s) == s
  {
    assert StripLeft(s) == s;
  }

  /** Digits alone are well formed. */
  lemma DigitsWellFormed(d: string)
    requires |d| > 0 && AllDigits(d)
    ensures WellFormedDigits(d) && DropUnderscores(d) == d
  {
  }

  /** `int` of a plain digit string is its decimal value. */
  lemma ParseDigitString(d: string)
    requires |d| > 0 && AllDigits(d)
    ensures ParseIntString(d) == Ok(DigitsValue(d))
  {
    StripUntouched(d);
    DigitsWellFormed(d);
    assert ParseSigned(d) == Ok(DigitsValue(d));
  }

  /** A minus sign followed by digits has no surrounding whitespace. */
  lemma StripNegated(d: string)
    requires |d| > 0 && AllDigits(d)
    ensures Strip("-" + d) == "-" + d
  {
    var s := "-" + d;
    assert s[0] == '-';
    assert s[|s| - 1] == d[|d| - 1];
    StripUntouched(s);
  }

  lemma ParseSignedNegative(s: string, d: string)
    requires |d| > 0 && AllDigits(d)
    requires |s| > 0 && s[0] == '-' && s[1..] == d
    ensures ParseSigned(s) == Ok(-(DigitsValue(d) as int))
  {
    DigitsWellFormed(d);
  }

  /** `int` of a minus sign followed by digits is the negated value. */
  lemma ParseNegatedDigitString(d: string, m: nat)
    requires |d| > 0 && AllDigits(d) && DigitsValue(d) == m
    ensures ParseIntString("-" + d) == Ok(-(m as int))
  {
    var s := "-" + d;
    StripNegated(d);
    assert s[1..] == d;
    ParseSignedNegative(s, d);
    assert ParseIntString(s) == ParseSigned(s);
  }

  /** Reading `str(n)` back with `int` gives `n`. */
  lemma ParseDecimal(n: int)
    ensures ParseIntString(Decimal(n)) == Ok(n)
  {
    if n < 0 {
      ParseNegativeDecimal(n);
    } else {
      ParseNaturalDecimal(n);
    }
  }

  lemma ParseNaturalDecimal(n: nat)
    ensures ParseIntString(Decimal(n)) == Ok(n)
  {
    var d := Digits(n);
    assert Decimal(n) == d;
    DigitsValueOfDigits(n);
    ParseDigitString(d);
  }

  lemma ParseNegativeDecimal(n: int)
    requires n < 0
    ensures ParseIntString(Decimal(n)) == Ok(n)
  {
    var d := Digits(-n);
    assert Decimal(n) == "-" + d;
    DigitsValueOfDigits(-n);
    ParseNegatedDigitString(d, -n);
  }
}

=== FILE: py_values.dfy ===
/** Python values as `json.loads` produces them, and the handful of built-in
    Python behaviours the modelled code leans on: truthiness, `dict.get`,
    iteration, keyword-argument construction of a dataclass, and the
    exceptions those raise. */
module PyValues {

  /** A decoded JSON document: null is None, true/false are bool, numbers
      written without a fraction or an exponent are int, the other numbers
      (`80.0` and `1e2` among them) are float, arrays are lists and objects
      are dicts. A dict is kept as its key/value pairs in insertion order,
      which is the order Python iterates it in. */
  datatype Json =
    | JNull
    | JBool(b: bool)
    | JInt(i: int)
    | JFloat(r: real)
    | JString(s: string)
    | JArray(items: seq<Json>)
    | JObject(fields: seq<(string, Json)>)

  /** The exceptions the modelled code can raise, by Python exception class. */
  datatype Error =
    | Raised(message: string)      // `raise Exception(message)`
    | TypeError
    | AttributeError
    | IndexError
    | KeyError
    | ValueError
    | ZeroDivisionError
    | OverflowError
    | MissingGroup(kind: string)   // StopIteration out of a `next(...)` search for `type == kind`
    | FileNotFound
    | JsonDecodeError
    | TransportError               // whatever the HTTP library raises

  datatype Option<+T> = None | Some(value: T)

  /** A value or the exception that replaced it; usable with `:-`. */
  datatype Result<+T> = Ok(value: T) | Err(error: Error) {
    predicate IsFailure() {
      Err?
    }

    function PropagateFailure<U>(): Result<U>
      requires Err?
    {
      Err(error)
    }

    function Extract(): T
      requires Ok?
    {
      value
    }
  }

  /** Python's `bool(v)`: None, False, zero, and empty str/list/dict are false. */
  predicate Truthy(v: Json)
    // None, False and "" are falsy; every non-empty string is truthy
    ensures v.JNull? || v == JBool(false) || v == JString("") ==> !Truthy(v)
    ensures v.JString? && v.s != "" ==> Truthy(v)
  {
    match v
    case JNull => false
    case JBool(b) => b
    case JInt(i) => i != 0
    case JFloat(r) => r != 0.0
    case JString(s) => |s| > 0
    case JArray(xs) => |xs| > 0
    case JObject(fs) => |fs| > 0
  }

  /** The keys of a dict. */
  function Keys(fields: seq<(string, Json)>): set<string> {
    set i | 0 <= i < |fields| :: fields[i].0
  }

  /** `d.get(key)`: the value bound to `key`, or None when the key is absent. */
  function Get(fields: seq<(string, Json)>, key: string): (r: Json)
    ensures key !in Keys(fields) ==> r == JNull
    ensures key in Keys(fields) ==>
              exists i :: 0 <= i < |fields| && fields[i] == (key, r)
  {
    if |fields| == 0 then JNull
    else if fields[0].0 == key then fields[0].1
    else
      assert Keys(fields) == {fields[0].0} + Keys(fields[1..]) by {
        assert forall i :: 0 < i < |fields| ==> fields[i] == fields[1..][i - 1];
      }
      Get(fields[1..], key)
  }

  /** `list(iter(v))`: a list yields its elements, a str its one-character
      strings, a dict its keys; anything else is not iterable. */
  function Iterate(v: Json): (r: Result<seq<Json>>)
    ensures r.Ok? <==> v.JArray? || v.JString? || v.JObject?
    ensures r.Err? ==> r.error == TypeError
    ensures v.JArray? ==> r == Ok(v.items)
    ensures v.JString? ==> r.Ok? && |r.value| == |v.s|
    ensures v.JObject? ==> r.Ok? && |r.value| == |v.fields|
    ensures !v.JArray? && r.Ok? ==> forall k :: 0 <= k < |r.value| ==> r.value[k].JString?
  {
    match v
    case JArray(xs) => Ok(xs)
    case JString(s) => Ok(seq(|s|, k requires 0 <= k < |s| => JString([s[k]])))
    case JObject(fs) => Ok(seq(|fs|, k requires 0 <= k < |fs| => JString(fs[k].0)))
    case _ => Err(TypeError)
  }

  /** `Cls(**v)` for a dataclass whose fields are `names`: `v` must be a dict
      whose keys are exactly those names, or the call raises TypeError. The
      result lists the field values in the order of `names`. */
  function Kwargs(v: Json, names: seq<string>): (r: Result<seq<Json>>)
    ensures r.Ok? <==> v.JObject? && Keys(v.fields) == set k | k in names
    ensures r.Err? ==> r.error == TypeError
    ensures r.Ok? ==> |r.value| == |names|
    ensures r.Ok? ==> forall k :: 0 <= k < |names| ==> r.value[k] == Get(v.fields, names[k])
  {
    if v.JObject? && Keys(v.fields) == set k | k in names then
      Ok(seq(|names|, k requires 0 <= k < |names| => Get(v.fields, names[k])))
    else Err(TypeError)
  }

  /** The `__dict__` of a dataclass with fields `names` and values `values`. */
  function FieldsDict(names: seq<string>, values: seq<Json>): (r: Json)
    requires |names| == |values|
    ensures r.JObject? && |r.fields| == |names|
    ensures forall k :: 0 <= k < |names| ==> r.fields[k] == (names[k], values[k])
  {
    JObject(seq(|names|, k requires 0 <= k < |names| => (names[k], values[k])))
  }

  /** Reading back a dataclass's `__dict__` through `Cls(**d)` gives the same
      field values, provided the field names are distinct. */
  lemma {:induction false} KwargsOfFieldsDict(names: seq<string>, values: seq<Json>)
    requires |names| == |values|
    requires forall i, j :: 0 <= i < j < |names| ==> names[i] != names[j]
    ensures Kwargs(FieldsDict(names, values), names) == Ok(values)
  {
    var d := FieldsDict(names, values);
    assert Keys(d.fields) == set k | k in names by {
      forall k | k in names ensures k in Keys(d.fields) {
        var i :| 0 <= i < |names| && names[i] == k;
        assert d.fields[i].0 == k;
      }
    }
    forall k | 0 <= k < |names| ensures Get(d.fields, names[k]) == values[k] {
      GetOfDistinct(d.fields, k);
    }
    var got := Kwargs(d, names);
    assert got.Ok?;
    assert got.value == values;
  }

  /** In a dict whose keys are distinct, `get` of the i-th key is the i-th value. */
  lemma {:induction false} GetOfDistinct(fields: seq<(string, Json)>, i: nat)
    requires i < |fields|
    requires forall a, b :: 0 <= a < b < |fields| ==> fields[a].0 != fields[b].0
    ensures Get(fields, fields[i].0) == fields[i].1
  {
    if i > 0 {
      var tail := fields[1..];
      assert tail[i - 1] == fields[i];
      assert fields[0].0 != fields[i].0;
      assert forall a, b :: 0 <= a < b < |tail| ==> tail[a].0 != tail[b].0 by {
        forall a, b | 0 <= a < b < |tail| ensures tail[a].0 != tail[b].0 {
          assert tail[a] == fields[a + 1] && tail[b] == fields[b + 1];
        }
      }
      GetOfDistinct(tail, i - 1);
    }
  }
}

=== FILE: token.dfy ===
/** The cloud token (`EnphaseToken`): a bearer value and a validity window
    given by two timestamps, each of which must convert with `int` to epoch
    seconds. Time is an integer count of epoch seconds passed in by the
    caller. */
module Token {
  import opened PyValues
  import opened PyInt

  /** The three dataclass fields, as decoded from JSON; the dataclass does not
      check their types, so each may be any JSON value. */
  datatype EnphaseToken = EnphaseToken(token: Json, generationTime: Json, expiresAt: Json)

  const FieldNames: seq<string> := ["token", "generation_time", "expires_at"]

  const StartMessage := "Error converting `generation_time` to datetime."
  const EndMessage := "Error converting `expires_at` to datetime."
  const ValidityMessage := "Cannot check validity; missing one of `token`, `generation_time`, `expires_at`."
  const IsValidMessage := "Cannot check is_valid; missing one of `generation_time`, `expires_at`."

  /** `EnphaseToken(**v)` */
  function FromKwargs(v: Json): (r: Result<EnphaseToken>)
    ensures r.Ok? <==> v.JObject? && Keys(v.fields) == {"token", "generation_time", "expires_at"}
    ensures r.Err? ==> r.error == TypeError
    ensures r.Ok? ==>
              && r.value.token == Get(v.fields, "token")
              && r.value.generationTime == Get(v.fields, "generation_time")
              && r.value.expiresAt == Get(v.fields, "expires_at")
  {
    var values :- Kwargs(v, FieldNames);
    Ok(EnphaseToken(values[0], values[1], values[2]))
  }

  /** The token's `__dict__`, as `save` writes it. */
  function TokenAsDict(t: EnphaseToken): Json {
    FieldsDict(FieldNames, [t.token, t.generationTime, t.expiresAt])
  }

  /** Writing a token's `__dict__` and rebuilding it with `EnphaseToken(**d)`
      gives back the same token. */
  lemma FromKwargsOfTokenAsDict(t: EnphaseToken)
    ensures FromKwargs(TokenAsDict(t)) == Ok(t)
  {
    KwargsOfFieldsDict(FieldNames, [t.token, t.generationTime, t.expiresAt]);
  }

  /** The `start` property: `int(generation_time)`, any TypeError or
      ValueError being replaced by the property's own exception. */
  function Start(t: EnphaseToken): (r: Result<int>)
    ensures r.Ok? <==> PyIntOf(t.generationTime).Ok?
    ensures r.Ok? ==> r == PyIntOf(t.generationTime)
    ensures r.Err? ==> r.error == Raised(StartMessage)
  {
    match PyIntOf(t.generationTime)
    case Ok(n) => Ok(n)
    case Err(_) => Err(Raised(StartMessage))
  }

  /** The `end` property: `int(expires_at)`, likewise. */
  function End(t: EnphaseToken): (r: Result<int>)
    ensures r.Ok? <==> PyIntOf(t.expiresAt).Ok?
    ensures r.Ok? ==> r == PyIntOf(t.expiresAt)
    ensures r.Err? ==> r.error == Raised(EndMessage)
  {
    match PyIntOf(t.expiresAt)
    case Ok(n) => Ok(n)
    case Err(_) => Err(Raised(EndMessage))
  }

  /** Both timestamps are present (truthy) and both convert to integers. */
  predicate WellFormed(t: EnphaseToken) {
    Truthy(t.generationTime) && Truthy(t.expiresAt) && Start(t).Ok? && End(t).Ok?
  }

  /** `is_valid()` at time `now`. The comparison `start <= now <= end` is a
      Python chained comparison: `end` is only converted when `start <= now`. */
  function IsValid(t: EnphaseToken, now: int): (r: Result<bool>)
    // for a well-formed token: the inclusive window check
    ensures WellFormed(t) ==> r == Ok(Start(t).value <= now <= End(t).value)
    // a missing timestamp is an error, never a false answer
    ensures !Truthy(t.generationTime) || !Truthy(t.expiresAt) ==> r == Err(Raised(IsValidMessage))
    // an unconvertible start is an error
    ensures Truthy(t.generationTime) && Truthy(t.expiresAt) && Start(t).Err? ==> r == Err(Raised(StartMessage))
    // an unconvertible end is an error only once `now` has reached the start
    ensures Truthy(t.generationTime) && Truthy(t.expiresAt) && Start(t).Ok? && End(t).Err? ==>
              r == (if Start(t).value <= now then Err(Raised(EndMessage)) else Ok(false))
    // `true` only inside the window
    ensures r == Ok(true) ==> WellFormed(t) && Start(t).value <= now <= End(t).value
  {
    if Truthy(t.generationTime) && Truthy(t.expiresAt) then
      var start :- Start(t);
      if start <= now then
        var end :- End(t);
        Ok(now <= end)
      else
        Ok(false)
    else
      Err(Raised(IsValidMessage))
  }

  /** `validity()`: the window it reports, as (start, end) epoch seconds.
      All three fields must be present; `start` is converted before `end`. */
  function Validity(t: EnphaseToken): (r: Result<(int, int)>)
    ensures r.Ok? <==> Truthy(t.token) && WellFormed(t)
    ensures r.Ok? ==> r.value == (Start(t).value, End(t).value)
    ensures !(Truthy(t.token) && Truthy(t.generationTime) && Truthy(t.expiresAt)) ==>
              r == Err(Raised(ValidityMessage))
    ensures Truthy(t.token) && Truthy(t.generationTime) && Truthy(t.expiresAt) && Start(t).Err? ==>
              r == Err(Raised(StartMessage))
    ensures Truthy(t.token) && Truthy(t.generationTime) && Truthy(t.expiresAt) && Start(t).Ok? && End(t).Err? ==>
              r == Err(Raised(EndMessage))
  {
    if Truthy(t.token) && Truthy(t.generationTime) && Truthy(t.expiresAt) then
      var start :- Start(t);
      var end :- End(t);
      Ok((start, end))
    else
      Err(Raised(ValidityMessage))
  }

  /** Whenever `is_valid()` answers, well-formedness aside, it answers the
      window check: a `false` is either outside the window or the short-cut
      before `end` is read. */
  lemma IsValidFalseMeansOutside(t: EnphaseToken, now: int)
    requires IsValid(t, now) == Ok(false)
    ensures Start(t).Ok?
    ensures now < Start(t).value || (End(t).Ok? && End(t).value < now)
  {
  }

  /** A window reported by `validity()` is the one `is_valid()` checks. */
  lemma ValidityAgreesWithIsValid(t: EnphaseToken, now: int)
    requires Validity(t).Ok?
    ensures IsValid(t, now) == Ok(Validity(t).value.0 <= now <= Validity(t).value.1)
  {
  }
}
